=== FILE: README.md ===
# WhatsApp message bridges: the message-metadata pipeline

The repository holds several Node.js bridges. Each one listens to a WhatsApp
account and copies every message into a Notion database; the newer ones also
copy it into a MariaDB table. This project models four of them:

- the MariaDB bridge (`whatsapp-notion-mariadb.js`);
- its backup copy (`respaldo.js`);
- the older Notion-only bridge (`otro.js`);
- the reply bot (`bot.js`).

Every bridge runs the same pipeline on a message, written out again in each file:

1. **Event classification** (module `Events`). A filter decides whether the
   event is logged at all. The two client events (`message`, `message_create`)
   are routed to the filter as incoming or outgoing.
2. **Directory parsing and lookup** (module `Directory`). The contact file
   (`name:number` lines) and the group-to-project file (`group:project`
   lines) are parsed into entry lists. The lookups run over those lists:
   - `buscarNombrePorNumero` compares numbers by bidirectional digit suffix
     (`DigitSuffix`), by substring of the part before '@' (`PrefixSubstring`),
     or by substring of the whole id (`WholeSubstring`);
   - `obtenerProyectoPorGrupo` compares group names caselessly or exactly.
3. **Identity and project resolution** (modules `Resolution`, `Registration`
   and `Bot`). Sender, recipient, phones, group and project are chosen
   through the fallback chains of each bridge, down to their sentinels
   ("Contacto no Registrado", "N/A", …). An unknown sender is
   auto-registered (`agregarContactoNoRegistrado`). This is modelled as a
   pure step from the contact file's text to the new text and the directory
   reloaded from it.
4. **Sink-record shaping** (modules `Sinks` and `LogNames`). This covers:
   - the Notion page properties, with the content cut to 2000 characters;
   - the MariaDB row values, with `NULL` for an empty group and for an empty
     or "N/A" project;
   - the names of the daily log directory and files.

`JsText` gives JavaScript's string behaviour in Dafny's terms: truthiness,
`trim` over the exact JavaScript whitespace set, `split`, `includes`,
`endsWith`, `replace(/\D/g, '')`, `toLowerCase` and `String(n)`. Values the
code fetches from the WhatsApp client are plain input fields:
- the chat (`getChat`);
- the profile names (`getContact`, `getContactById`);
- the account's name and id (`client.info`).

The two reads of the clock made while naming a log file are two
`CalendarDate` inputs. Whether the day directory exists or can be created is
an `available` flag.

Three choices of the code that are easy to misread:
- An incoming sender's WhatsApp profile name wins over the directory name.
  The directory is consulted only when there is no profile name.
- The backup bridge has no default-project fallback: every direct message
  there gets "N/A", and a group without a mapping gets "N/A" too.
- The older bridges load a project that is only blanks as an empty project.
  So their project is not always a non-empty string.

Behaviours of the code that the model keeps as they are, each proved as a lemma:
- The backup bridge registers an unknown sender under the full id
  (`5551234@c.us`). It then looks the sender up by the part before '@' with
  `includes`, so the second lookup misses, and the sender is stored as
  "Contacto no Registrado" on this and every later message
  (`Resolution.SubstringMatcherLosesRegisteredSender`,
  `Resolution.SubstringMatcherLossPersists`). The MariaDB bridge's
  digit-suffix matcher finds the same sender
  (`Resolution.SuffixMatcherFindsRegisteredSender`).
- A stored number without digits, or an id without digits, matches
  everything under the suffix matcher. A short stored number matches every
  id that contains it under the substring matchers. An empty number (kept
  only by the older loader) matches every id.
- The older loader throws on a contact file that ends with a newline. Nothing
  catches that throw, so the bridge process ends, at start-up and on the
  reload after a registration alike.
- The older registration has no duplicate check: registering twice writes
  the line twice.
- The MariaDB bridge reads the clock once for the day directory and once
  more for the file name. Across midnight, the file lands in the previous
  day's directory under the next day's name.
- When the bot has no number for an incoming sender, it sends its
  acknowledgement to the bare suffix "@c.us".

## Model

| member | source | states |
|---|---|---|
| JsText.Pick | whatsapp-notion-mariadb.js:573 | `value \|\| fallback` on an optional string: the value when it is truthy (present and non-empty), the fallback otherwise |
| JsText.OrElse | whatsapp-notion-mariadb.js:584 | `a \|\| b` on strings: `a` exactly when `a` is non-empty, else `b`; empty only when `b` is |
| JsText.FirstTruthy | whatsapp-notion-mariadb.js:629 | `a \|\| b` on optional strings: truthy exactly when one of them is, and `a` whenever `a` is truthy |
| JsText.Interpolate | respaldo.js:213 | a template literal renders a present value as itself and a missing one as "undefined" |
| JsText.TrimEmptyIffBlank | whatsapp-notion-mariadb.js:546 | `trim()` yields "" exactly when every character is JavaScript whitespace |
| JsText.TrimIdempotent | whatsapp-notion-mariadb.js:287 | trimming a trimmed text changes nothing |
| JsText.TrimSnocWhitespace | whatsapp-notion-mariadb.js:287 | a trailing whitespace character does not change the trimmed text |
| JsText.Split | whatsapp-notion-mariadb.js:256 | `split(sep)` gives at least one part, no part holds the separator, and joining the parts with it gives back the text |
| JsText.SplitJoin | whatsapp-notion-mariadb.js:256 | the inverse direction: separator-free parts joined and split again come back unchanged |
| JsText.SplitAppend | whatsapp-notion-mariadb.js:287 | splitting `a + sep + b` gives the parts of `a` followed by the parts of `b` |
| JsText.TakeUntil | whatsapp-notion-mariadb.js:718 | `split('@')[0]`: the longest prefix without the separator, stopping right before its first occurrence |
| JsText.Digits | whatsapp-notion-mariadb.js:722-723 | `replace(/\D/g, '')`: only digits remain, never longer than the input, and an all-digit text is unchanged |
| JsText.DigitsAppend | whatsapp-notion-mariadb.js:722-723 | the digits of a concatenation are the concatenated digits |
| JsText.ToLower | whatsapp-notion-mariadb.js:736 | `toLowerCase()` maps each character on its own and keeps the length |
| JsText.ToLowerIdempotent | whatsapp-notion-mariadb.js:736 | lower-casing twice is lower-casing once |
| JsText.DecimalRoundTrip | whatsapp-notion-mariadb.js:546 | `String(n)` for a natural number reads back as `n` |
| Events.TimestampText | whatsapp-notion-mariadb.js:546 | `String(message.timestamp)` is "undefined" for a missing timestamp, else non-empty decimal digits that read back as the timestamp |
| Events.ClassifyMariaDb | whatsapp-notion-mariadb.js:542-554 | accepted exactly when the message exists, is not a status update, has a string body that is not blank, whose trimmed text differs from `String(timestamp)`, and is not a broadcast from someone else; a missing message is rejected as such; the blank and timestamp-echo rejections name their cause |
| Events.ClassifyBackup | respaldo.js:476-484 | the backup bridge's filter only rejects for the six causes of the MariaDB bridge |
| Events.BackupFilterMatchesMariaDb | respaldo.js:476-484 | the backup bridge's filter gives the same verdict, with the same reason, as the MariaDB bridge's on every message |
| Events.ClassifyOlder | otro.js:331-338 | accepted exactly when not a status update and the body is truthy and not blank; rejections are for those causes only |
| Events.MariaDbFilterStricter | otro.js:331-338 | every message the MariaDB bridge logs, the older bridge logs too |
| Events.OlderFilterKeepsTimestampEcho | otro.js:331-338 | the converse fails: a body repeating the timestamp is logged by the older bridge and dropped by the MariaDB bridge |
| Events.ClassifyBot | bot.js:263-275 | accepted exactly when the older filter accepts and the message is not the account's own processed as incoming; the own-echo rejection happens exactly then |
| Events.BlankBodyDroppedEverywhere | bot.js:268-270 | a whitespace-only body is rejected by all four filters |
| Events.TypeLabel | bot.js:281 | the type is "Salida" exactly for outgoing and "Entrada" exactly for incoming |
| Events.RouteNewer | whatsapp-notion-mariadb.js:699-711 | the `message` handler processes exactly the messages not from the account, as incoming; `message_create` exactly those from it, as outgoing |
| Events.NewerRoutingProcessesOnce | respaldo.js:587-596 | a message goes through exactly one of the two handlers |
| Events.RouteOlder | otro.js:428-437 | `message` processes everything as incoming; `message_create` processes exactly the account's own messages, as outgoing |
| Events.BotOwnMessageLoggedOnce | bot.js:330-340 | an own message that reaches the bot through `message` is dropped by the own-echo guard, and through `message_create` it is kept |
| Directory.FirstIndex | whatsapp-notion-mariadb.js:719 | `array.find`: the position of an element satisfying the test with none before it, or none when no element does |
| Directory.ParseContactLine | whatsapp-notion-mariadb.js:257-262 | a kept contact line always has a non-empty number |
| Directory.ContactLineFields | whatsapp-notion-mariadb.js:257-262 | a line is kept exactly when it has a colon and a non-blank second field, and then name and number are the trimmed first and second fields |
| Directory.ParseContactLines | whatsapp-notion-mariadb.js:256-263 | the filter keeps at most one entry per line, each with a non-empty number |
| Directory.ParseContacts | whatsapp-notion-mariadb.js:256-263 | the loaded directory holds no entry with an empty number |
| Directory.ParseContactLinesAppend | whatsapp-notion-mariadb.js:256-263 | parsing two runs of lines is parsing each, in file order |
| Directory.ParseContactsAppendLine | whatsapp-notion-mariadb.js:287-300 | appending "\n" and a line to the text adds exactly that line's entry, if it has one, after the old entries |
| Directory.ContactLineConsWhitespace | whatsapp-notion-mariadb.js:259-260 | leading whitespace on a line changes nothing in its entry |
| Directory.ContactLineSnocWhitespace | whatsapp-notion-mariadb.js:259-260 | trailing whitespace on a line changes nothing in its entry |
| Directory.ParseContactsTrimStart | whatsapp-notion-mariadb.js:287 | the directory of the text without its leading whitespace is the directory of the text |
| Directory.ParseContactsSnocNewline | whatsapp-notion-mariadb.js:256-263 | a trailing newline adds no entry |
| Directory.ParseContactLinesSameLast | whatsapp-notion-mariadb.js:256-263 | replacing the last line by one that parses the same changes no entry |
| Directory.ParseContactsSnocBlank | whatsapp-notion-mariadb.js:256-263 | a trailing whitespace character other than newline changes no entry |
| Directory.ParseContactsTrimEnd | whatsapp-notion-mariadb.js:287 | the directory of the text without its trailing whitespace is the directory of the text |
| Directory.ParseContactsTrim | whatsapp-notion-mariadb.js:287 | the directory of `data.trim()` is the directory of `data` |
| Directory.ParseContactsStrict | otro.js:103-106 | the older loader succeeds exactly when every line has a colon, and then gives one entry per line, the i-th holding the trimmed text before the first colon and the trimmed text between the first and the second colon of the i-th line |
| Directory.StrictLines | otro.js:103-106 | the same, line by line: defined exactly when every line has a colon, one entry per line, each the trimmed first and second colon-separated fields of its line |
| Directory.StrictLoaderRejectsTrailingNewline | otro.js:103-106 | a file ending in a newline makes the older loader throw, which ends the process |
| Directory.StrictLoaderKeepsEmptyNumber | otro.js:103-106 | a line `name:` becomes an entry with an empty number in the older loader and no entry in the newer one |
| Directory.ParseGroupLine | whatsapp-notion-mariadb.js:316-318 | a kept group line has a colon, and its entry is the trimmed text before the first colon and the trimmed text between the first and second colon, both non-empty |
| Directory.GroupLineFields | whatsapp-notion-mariadb.js:316-318 | the newer test keeps a line exactly when it has a colon and both trimmed fields are non-empty; the older test exactly when both untrimmed fields are; when the newer keeps a line, the older keeps the same entry |
| Directory.ParseGroupLines | whatsapp-notion-mariadb.js:314-320 | at most one entry per line, and every loaded group and project is non-empty |
| Directory.ParseGroupLinesLoose | otro.js:149-154 | the older test keeps at most one entry per line |
| Directory.ParseGroups | whatsapp-notion-mariadb.js:309-329 | every loaded group and project is non-empty |
| Directory.ParseGroupLinesAppend | whatsapp-notion-mariadb.js:314-320 | the map of two runs of lines is the map of each, in file order |
| Directory.ParseGroupLinesLooseAppend | otro.js:149-154 | the same for the older test |
| Directory.ParseGroupLinesSingle | whatsapp-notion-mariadb.js:314-320 | a one-line file maps exactly that line's entry, if the newer test keeps it |
| Directory.ParseGroupsAppendLine | whatsapp-notion-mariadb.js:313-320 | appending a line to the group file adds exactly that line's mapping, if the newer test keeps it, after the old ones |
| Directory.ParseGroupsLooseAppendLine | otro.js:145-154 | appending a line to the group file adds exactly that line's mapping, if the older test keeps it, after the old ones |
| Directory.LooseLoaderKeepsBlankProject | otro.js:149-154 | a line `group:` followed by blanks becomes a mapping to the empty project in the older loader and no mapping in the newer one |
| Directory.FindContact | whatsapp-notion-mariadb.js:719-728 | the first entry whose number matches the id under the variant's comparison, or none when no entry matches |
| Directory.LookupName | whatsapp-notion-mariadb.js:716-730 | the sentinel for a missing or empty id; otherwise the first matching entry's name, or the sentinel when none matches; the backup bridge compares "the stored number is inside the part before '@'" (respaldo.js:599-604); the older bridge and the bot "the stored number is inside the whole id", with no guard (otro.js:449-456, bot.js:351-358) |
| Directory.FindContactAfterMiss | whatsapp-notion-mariadb.js:719-728 | after a miss, an entry appended to the directory is found exactly when it matches, at the last position |
| Directory.SuffixOverlapSymmetric | whatsapp-notion-mariadb.js:727 | the suffix comparison does not depend on which side is the stored number |
| Directory.CountryCodeTolerance | whatsapp-notion-mariadb.js:721-727 | when the id's digits are a stored number's digits with a prefix (a country code), that entry or an earlier one answers |
| Directory.DigitlessEntryMatchesEverything | whatsapp-notion-mariadb.js:722-727 | a first entry whose number has no digits answers every non-empty id |
| Directory.DigitlessIdMatchesFirstEntry | whatsapp-notion-mariadb.js:718-727 | an id with no digits before '@' is answered by the first entry |
| Directory.ShortNumberMatchesAnyContainingId | respaldo.js:602 | a stored number occurring anywhere before '@' answers the id, under both substring comparisons |
| Directory.EmptyNumberMatchesEverything | otro.js:449-456 | an entry with an empty number answers every id |
| Directory.FindGroup | whatsapp-notion-mariadb.js:736 | the first mapping whose group matches the name, caselessly or exactly, or none |
| Directory.GroupProject | whatsapp-notion-mariadb.js:733-739 | "N/A" for an empty name under the caseless lookup; else the first match's project, or the fallback on a miss; the backup bridge's lookup is caseless with "N/A" as the fallback (respaldo.js:606-610); the older bridge's is exact, with no empty-name guard (otro.js:458-461) |
| Directory.MappedGroupIgnoresFallback | whatsapp-notion-mariadb.js:736-738 | a mapped group's project is the same whatever the fallback, and is one of the loaded projects |
| Directory.CaselessLookupIgnoresCase | whatsapp-notion-mariadb.js:736 | the caseless lookup answers a name and its lower-case form alike |
| Directory.CaselessProjectNonEmpty | whatsapp-notion-mariadb.js:733-739 | with non-empty loaded projects and a non-empty fallback, the project is never "" |
| Registration.Load | whatsapp-notion-mariadb.js:251-263 | the directory loaded at start-up is the parse of the file's text |
| Registration.AppendLine | whatsapp-notion-mariadb.js:287 | the new text ends with the new line, and is only that line exactly when the old text is blank; for a line without a newline, the lines of the new text are the lines of the trimmed old text (none when it is blank) followed by the new line |
| Registration.Register | whatsapp-notion-mariadb.js:273-307 | nothing changes when the text already holds ":" + number; otherwise the line is appended to the trimmed text and the directory is the parse of the new text |
| Registration.RegisterRecordsNumber | whatsapp-notion-mariadb.js:282-288 | after registration the text always holds ":" + number |
| Registration.RegisterIdempotent | whatsapp-notion-mariadb.js:282-285 | registering the same number again, under any name, changes nothing |
| Registration.ContactLineParses | whatsapp-notion-mariadb.js:274 | the written line `name:number` reads back as the trimmed name and number |
| Registration.RegisterAppendsEntry | whatsapp-notion-mariadb.js:287-300 | registering a new number keeps every entry, in order, and adds exactly the new one at the end |
| Registration.RegisterTwiceWritesOnce | respaldo.js:221-226 | two registrations of a new contact write its line once |
| Registration.AppendContact | otro.js:112-141 | the older registration always ends the text with the new line; for a contact without newlines, the lines of the new text are those of the trimmed old text followed by `name:number`; the reload succeeds exactly when every line has a colon |
| Registration.ContactLineFieldsStrict | otro.js:113 | for a name without a colon, the line `name:number` has a colon, its first field is the name and its second field is the number up to any further colon |
| Registration.AppendContactReloadsNewEntry | otro.js:122-136 | the reload after an older registration succeeds exactly when the trimmed old text is blank or every one of its lines has a colon, and its last entry is then the new contact, trimmed |
| Registration.AppendContactTwiceDuplicates | otro.js:122 | two registrations of the same contact leave two copies of its line |
| Resolution.ProfileName | whatsapp-notion-mariadb.js:629 | `pushname \|\| name`: truthy exactly when one of them is, and the push name when it is truthy |
| Resolution.GroupName | whatsapp-notion-mariadb.js:598 | `chat.name \|\| 'Grupo Desconocido'`: never empty, the chat's name when it has one |
| Resolution.InboundSender | whatsapp-notion-mariadb.js:629-643 | without a profile name: the directory name or the unknown sentinel, and nothing registered; with one: the profile name whenever the directory knows the id or the name is a sentinel; a profile name that is itself a sentinel is always registered under the id (whatsapp-notion-mariadb.js:632-637); when the directory misses and the name is a real one, it is registered and the sender is what the directory then answers; registration keeps the directory consistent; the backup bridge runs the same block with its substring comparison (respaldo.js:540-550) |
| Resolution.LookupAfterRegister | whatsapp-notion-mariadb.js:638-641 | after registering an id the directory missed, the lookup finds the new name exactly when the comparison accepts the registered number for that id |
| Resolution.InboundSenderRelooks | whatsapp-notion-mariadb.js:638-641 | after a miss with a real profile name, the sender is the directory's answer after registration |
| Resolution.OwnIdMatchesSuffix | whatsapp-notion-mariadb.js:721-727 | an id whose digits all lie before '@' matches its own registered number under the suffix comparison |
| Resolution.SuffixLookupAfterRegister | whatsapp-notion-mariadb.js:638-641 | under the suffix comparison an unknown id misses before and is found under the trimmed name after registration |
| Resolution.SuffixMatcherFindsRegisteredSender | whatsapp-notion-mariadb.js:629-643 | the MariaDB bridge records an unknown sender under the trimmed profile name |
| Resolution.SubstringMatcherLosesRegisteredSender | respaldo.js:540-550 | the backup bridge records an unknown sender with an '@' in its id as "Contacto no Registrado", though it has a profile name |
| Resolution.SubstringMatcherLossPersists | respaldo.js:540-550 | on the next message from that sender nothing is registered and the sender is still "Contacto no Registrado" |
| Resolution.MariaDbProject | whatsapp-notion-mariadb.js:647-656 | a group's project is the caseless mapping, else the default project, else "N/A"; an incoming direct message gets the default or "N/A"; an outgoing direct message gets "N/A"; the project is "" only through a mapping |
| Resolution.OutgoingDirectRecipient | whatsapp-notion-mariadb.js:583-589 | the recipient's profile name is used as it is unless it is a sentinel; without a profile name the recipient is the directory's answer ("Contacto no Registrado" on a miss), and the chat's name, else "Contacto Desconocido", only when the matched entry's name is empty; nothing is registered then; a profile name equal to a sentinel is registered under `to` and the recipient is what the directory then answers; the directory stays consistent |
| Resolution.OutgoingDirectRecipientRegistersOnce | whatsapp-notion-mariadb.js:583-589 | a second outgoing message to the same recipient leaves the registry as the first left it |
| Resolution.ResolveMariaDb | whatsapp-notion-mariadb.js:572-657 | type from the direction; a group exactly for group chats, named after the chat; project from `MariaDbProject`; the account is the sender of outgoing and the recipient of incoming messages, with its own number; phones from `to`, the author (else `from`) in groups, or `from`; an outgoing direct recipient and its registration come from `OutgoingDirectRecipient`; an incoming sender and its registration come from `InboundSender` under the suffix comparison, for the author (else `from`) with "Miembro Desconocido" in groups and for `from` with "Contacto Desconocido" otherwise; a group message whose author and `from` are both empty is from "Miembro Desconocido (Sin Author ID)" and registers nothing; the directory stays consistent |
| Resolution.GroupMappingTakesPrecedence | whatsapp-notion-mariadb.js:652-657 | a mapped group's project is the mapping's, whatever default project is configured |
| Resolution.MariaDbRecordsUnknownDirectSender | whatsapp-notion-mariadb.js:627-643 | an unknown direct sender with a real profile name is recorded under the trimmed profile name |
| Resolution.ResolveBackup | respaldo.js:502-557 | a group exactly for group chats, named after the chat; the project is the caseless mapping or "N/A" for groups and "N/A" for direct messages; an outgoing message is sent by the fixed local name with its own number to `to`, registers nothing, and goes to the group or else to the directory name, else the chat's name; an incoming message goes to the fixed local name with its own number; its sender and registration come from `InboundSender` under the substring comparison, for the author with "Miembro Desconocido" in groups (the author is the sender phone) and for `from` with "Contacto Desconocido" otherwise (`from` is the sender phone) |
| Resolution.BackupRegistersMissingAuthorAsUndefined | respaldo.js:523-531 | if the profile lookup answers, a group message without an author registers its sender's profile name under the number "undefined" |
| Resolution.BackupLosesUnknownDirectSender | respaldo.js:538-551 | the same unknown direct sender, with an '@' in its id, is recorded by the backup bridge as "Contacto no Registrado" |
| Resolution.GroupIdOf | otro.js:463-469 | the remote id exactly when it ends with "@g.us", else ""; the bot's helper is the same (bot.js:365-371) |
| Resolution.ResolveOlder | otro.js:383-414 | the recipient is the directory name of `to`; the phones are `from` and `to`; the group is the directory name of the group id, or "" when the directory does not know it; the project is the exact mapping or "N/A"; a known sender is the directory name of the author, else of `from`, and the file and directory stay as they were; without a notify name the same holds and an unknown sender is "Contacto no Registrado"; an unknown sender with a notify name is recorded under it, registered under the author (else `from`), and the directory is the strict reload of the new text |
| Resolution.OlderRegistersUnderAuthorElseFrom | otro.js:403-412 | an unknown sender with a notify name is recorded under it and registered under the author, else under `from`, with the strict reload of the new text |
| Resolution.OlderDirectChatHasNoGroup | otro.js:392-401 | outside a group chat, with no empty number and no empty group in the files, the group is "" and the project "N/A" |
| Resolution.EmptyIdMatchesNoEntry | otro.js:449-456 | the empty id is inside no non-empty stored number |
| Sinks.Truncate | whatsapp-notion-mariadb.js:364-368 | at most 2000 long; unchanged exactly when at most 2000 long; a longer text becomes exactly 2000 long, keeps its first 1997 characters and ends in "..."; the backup bridge cuts the same way (respaldo.js:301-306) |
| Sinks.TruncateIdempotent | whatsapp-notion-mariadb.js:366-367 | cutting a cut text changes nothing |
| Sinks.TruncateKeepsNonEmpty | whatsapp-notion-mariadb.js:366-375 | the cut text is empty exactly when the content is |
| Sinks.Filled | whatsapp-notion-mariadb.js:372 | `value \|\| fallback` for a property: never empty, the value when it is non-empty |
| Sinks.NotionPageOf | whatsapp-notion-mariadb.js:370-382 | every name, content, phone and project property is non-empty; an empty name becomes "Desconocido", empty content "(Sin contenido)", a missing phone and an empty project "N/A"; the content is at most 2000 long; each given non-empty value is kept (the content cut); type, date and group pass through |
| Sinks.MessageIdOf | whatsapp-notion-mariadb.js:570 | the message id when it is truthy, else `NULL` |
| Sinks.GroupColumn | whatsapp-notion-mariadb.js:415 | `NULL` exactly for the empty group, else the group |
| Sinks.ProjectColumn | whatsapp-notion-mariadb.js:416 | `NULL` exactly for "N/A" and "", else the project |
| Sinks.RowOf | whatsapp-notion-mariadb.js:406-417 | names, phones and content are never empty; an empty name becomes "Desconocido", empty content "(Sin contenido)" and a missing phone "N/A"; given non-empty names, phones and content are kept, the content uncut; the group is `NULL` exactly when empty; the project is `NULL` exactly when "N/A" or empty and else kept; id, type and time pass through; the backup bridge builds the same row (respaldo.js:343-354) |
| Sinks.PageAndRowAgree | whatsapp-notion-mariadb.js:363-417 | the page and the row of a message carry the same names, phones, type and date; the page's content is the row's cut; the row has a group exactly when the page's group is non-empty and a project exactly when the page's is not "N/A" |
| Sinks.RowKeepsLongContent | whatsapp-notion-mariadb.js:364-414 | a long content reaches the row whole and the page cut to exactly 2000 characters |
| Sinks.BackupDirectRowHasNoProject | respaldo.js:498-557 | a direct message of the backup bridge is stored with `NULL` group and project, in both directions |
| Sinks.MariaDbDirectRowProject | whatsapp-notion-mariadb.js:647-656 | an outgoing direct message is stored with a `NULL` project; an incoming one with the configured default project unless it is "N/A" |
| LogNames.Pad2 | whatsapp-notion-mariadb.js:60-61 | `padStart(2, '0')`: all digits, at least two, exactly two below 100, reading back as the number |
| LogNames.DailyDirectory | whatsapp-notion-mariadb.js:57-87 | the base directory extended by the month directory and the day directory; the day directory splits at '_' into exactly the date's `DD-MM-YYYY` stamp and the Spanish weekday name; only the base when the directory is unavailable |
| LogNames.MonthDirFields | whatsapp-notion-mariadb.js:59-66 | the month directory splits at '_' into the year, the month counted from 1 (reading back as such) and the Spanish month name |
| LogNames.MonthNameHasNoUnderscore | whatsapp-notion-mariadb.js:47-50 | no Spanish month name holds an underscore |
| LogNames.DayNameHasNoUnderscore | whatsapp-notion-mariadb.js:51-53 | no Spanish weekday name holds an underscore |
| LogNames.StampFields | whatsapp-notion-mariadb.js:67 | the `DD-MM-YYYY` stamp splits at '-' into the padded day, the padded month and the year |
| LogNames.StampRoundTrip | whatsapp-notion-mariadb.js:60-67 | the stamp reads back as the day, the month counted from 1 and the year |
| LogNames.StampInjective | whatsapp-notion-mariadb.js:60-67 | two dates have the same stamp exactly when they fall on the same day |
| LogNames.LogFilePath | whatsapp-notion-mariadb.js:120-139 | the day directory followed by `whatsapp-log-DD-MM-YYYY.log` or `mensajes-DD-MM-YYYY.log` |
| LogNames.FileStampMatchesDirectory | whatsapp-notion-mariadb.js:120-128 | the file's stamp is the day directory's exactly when both clock reads fall on the same day |
| Bot.FormatNumber | bot.js:382-393 | the result is always a chat id; a chat id is kept; any other text becomes its digits followed by "@c.us" |
| Bot.FormatNumberIdempotent | bot.js:382-393 | formatting a formatted number changes nothing |
| Bot.FormatNumberKeepsDigits | bot.js:389-392 | formatting keeps exactly the input's digits, in order |
| Bot.NoDigitsAtAll | bot.js:389 | a text without digit characters has no digits |
| Bot.UnknownNumberFormatsToBareSuffix | bot.js:297 | the fallback "Número desconocido" formats to the bare "@c.us" |
| Bot.ResolveBot | bot.js:287-305 | the type from the direction; an outgoing message is logged as "Usuario (Yo)" with the chat's number; an incoming one under the profile name and number; an acknowledgement exactly for incoming messages, to the formatted number |
| Bot.BotAcknowledgesIncomingOnly | bot.js:273-305 | a message the bot accepts is acknowledged exactly when it came through `message`, and an own message is accepted only through `message_create` |
| Bot.BotReplyWithoutNumber | bot.js:296-305 | without a profile number the acknowledgement goes to "@c.us" |

## Left out

- The WhatsApp client (`whatsapp-web.js`) is out: login, event delivery, `getChat`, `getContact`, `getContactById`, `sendMessage`, block and unblock. Their answers are input fields.
- A profile lookup that throws is out. This covers `getContactById(undefined)` on an authorless group message in the backup bridge. Such a message is modelled as if the profile lookup answered.
- The Notion HTTP calls and the MariaDB pool are out: connections, queries and error handling. Only the page properties and row values they receive are modelled.
- The older bridge and the bot build their own raw Notion payload; that payload is out. The bot passes its entry to Notion with empty recipient, recipient phone, project and group; those arguments are out.
- File-system I/O is out: reading, writing, `existsSync` and `mkdirSync`. Registration is a text-to-text step, and the day directory's existence or creation is the `available` input.
- The older registration's reload happens in an asynchronous callback, so it lands after the message is processed. The model applies it at once.
- The message log text, `JSON.stringify` of the message, `saveMessage` and console output are out.
- The bot's `saveMessage` also sends "texto de prueba" to `message.from` (bot.js:138). That send is part of logging, which is out.
- The clock, time zones and `toISOString` are out. The MariaDB row's `new Date(timestamp)` is kept as the ISO string it is built from, and the page date as the given string.
- The calendar fields are inputs. The model does not check that a weekday fits its date, and years are natural numbers.
- Cron jobs, timers, reconnection, signal handlers and process exit are out.
- A throw of the older loader ends the bridge process: at start-up (otro.js:103-106), and in the reload after a registration, which runs in a file-system callback that nothing guards (otro.js:133-136; only unhandled promise rejections are caught, otro.js:472-474). The model marks that throw as a `None` directory and does not model the exit.
- Races between concurrent registrations are out: the code does not synchronise them.
- `toLowerCase` is modelled for ASCII and Latin-1 letters only.
- JsText.DecimalString: always plain decimal digits. JavaScript's `String(n)` switches to exponent notation from 1e21 on; timestamps stay far below that.
- A `char` stands for one UTF-16 code unit, as in JavaScript strings.
- `wn.js`, `integracion-whatsapp-notion.js` and `index.js` are not part of this model. They wire the client and duplicate the log-file naming modelled here.
- The block list and the per-project credentials file are not part of this model.
- Directory.ParseContactLine: states only that a kept entry has a non-empty number; `Directory.ContactLineFields` states the fields.
- Directory.ParseGroupLineLoose: carries no contract of its own; `Directory.GroupLineFields` and `Directory.LooseLoaderKeepsBlankProject` state its behaviour.
- Resolution.OlderDirectChatHasNoGroup: assumes no stored number and no mapped group is empty. Files that break this are covered by `Directory.EmptyNumberMatchesEverything`.
- Resolution.SuffixMatcherFindsRegisteredSender: assumes an id in the client's shape. That means no surrounding whitespace, no ':' or newline, digits only before '@', and a profile name without ':' or newline.

=== FILE: bot.dfy ===
/**
 * What the reply bot adds to the older bridge: its number formatter and the
 * minimal record it logs, with the "mensaje recibido" reply it sends back.
 */
module Bot {
  import opened Wrappers
  import opened JsText
  import opened Events
  import opened Resolution

  const PrivateSuffix := "@c.us"
  const GroupSuffix := "@g.us"

  /** A WhatsApp chat id: the text ends with the private or the group suffix. */
  predicate IsChatId(s: string) {
    EndsWith(s, PrivateSuffix) || EndsWith(s, GroupSuffix)
  }

  /**
   * `formatearNumero`: a chat id is kept as it is; any other text is reduced
   * to its digits and given the private suffix.
   */
  function FormatNumber(s: string): (r: string)
    ensures IsChatId(r)
    ensures IsChatId(s) ==> r == s
    ensures !IsChatId(s) ==> EndsWith(r, PrivateSuffix) && r[..|r| - |PrivateSuffix|] == Digits(s)
  {
    if IsChatId(s) then s
    else
      var r := Digits(s) + PrivateSuffix;
      assert r[|r| - |PrivateSuffix|..] == PrivateSuffix;
      r
  }

  /** Formatting a formatted id changes nothing. */
  lemma FormatNumberIdempotent(s: string)
    ensures FormatNumber(FormatNumber(s)) == FormatNumber(s)
  {
  }

  /** The digits of a formatted number are those of the input: none is added, dropped or moved. */
  lemma FormatNumberKeepsDigits(s: string)
    ensures Digits(FormatNumber(s)) == Digits(s)
  {
    if !IsChatId(s) {
      DigitsAppend(Digits(s), PrivateSuffix);
      assert Digits(PrivateSuffix) == [] by {
        assert !IsDigit(PrivateSuffix[0]);
        assert PrivateSuffix[1..] == "c.us" && "c.us"[1..] == ".us" && ".us"[1..] == "us" && "us"[1..] == "s";
      }
    }
  }

  /** A text with no digits at all becomes the bare suffix, an id of no one. */
  lemma UnknownNumberFormatsToBareSuffix()
    ensures FormatNumber("Número desconocido") == PrivateSuffix
  {
    var s := "Número desconocido";
    assert !EndsWith(s, PrivateSuffix) by { assert s[|s| - 1] != 's' || s[|s| - 2] != 'u'; }
    assert !EndsWith(s, GroupSuffix) by { assert s[|s| - 2] != 'u'; }
    assert Digits(s) == [] by {
      assert forall i :: 0 <= i < |s| ==> !IsDigit(s[i]);
      NoDigitsAtAll(s);
    }
  }

  /** A text without digit characters has no digits. */
  lemma {:induction false} NoDigitsAtAll(s: string)
    requires forall i :: 0 <= i < |s| ==> !IsDigit(s[i])
    ensures Digits(s) == []
    decreases |s|
  {
    if |s| > 0 {
      NoDigitsAtAll(s[1..]);
    }
  }

  // ---------------------------------------------------------------------------
  // The bot's record and reply
  // ---------------------------------------------------------------------------

  const Self := "Usuario (Yo)"
  const UnknownNumber := "Número desconocido"
  const UnknownName := "Nombre desconocido"
  const Acknowledgement := "mensaje recibido"

  /** What the bot writes for a message and where it sends its acknowledgement (`None`: no reply). */
  datatype BotEntry = BotEntry(contact: string, phone: string, kind: string, replyTo: Option<string>)

  /**
   * `processMessage` of the bot, for a message that passed its filter: an
   * outgoing message is logged as the local user with the chat's number; an
   * incoming one under the profile name and number, and acknowledged to
   * that number.
   */
  function ResolveBot(chatUser: Option<string>, profile: Profile, profileNumber: Option<string>, outgoing: bool): (r: BotEntry)
    ensures r.kind == TypeLabel(outgoing)
    ensures r.replyTo.Some? <==> !outgoing
    ensures r.contact != "" && r.phone != ""
    ensures outgoing ==> r.contact == Self && (Truthy(chatUser) ==> r.phone == chatUser.value)
    ensures !outgoing && Truthy(ProfileName(profile)) ==> r.contact == ProfileName(profile).value
    ensures !outgoing && Truthy(profileNumber) ==> r.phone == profileNumber.value
    ensures r.replyTo.Some? ==> r.replyTo.value == FormatNumber(r.phone)
  {
    if outgoing then BotEntry(Self, Pick(chatUser, UnknownNumber), TypeLabel(outgoing), None)
    else
      var phone := Pick(profileNumber, UnknownNumber);
      BotEntry(Pick(ProfileName(profile), UnknownName), phone, TypeLabel(outgoing), Some(FormatNumber(phone)))
  }

  /**
   * The bot logs and acknowledges a message exactly when its filter accepts
   * it for the event it arrived through; its own messages are logged through
   * `message_create` only and never acknowledged.
   */
  lemma BotAcknowledgesIncomingOnly(m: Message, e: ClientEvent, chatUser: Option<string>, profile: Profile, profileNumber: Option<string>)
    requires RouteOlder(e, m).Some? && ClassifyBot(m, RouteOlder(e, m).value) == Accept
    ensures ResolveBot(chatUser, profile, profileNumber, RouteOlder(e, m).value).replyTo.Some? <==> e == Received
    ensures m.fromMe ==> e == Created
  {
  }

  /** Without a profile number the acknowledgement goes to the bare suffix. */
  lemma BotReplyWithoutNumber(profile: Profile, chatUser: Option<string>)
    ensures ResolveBot(chatUser, profile, None, false).replyTo == Some(PrivateSuffix)
  {
    UnknownNumberFormatsToBareSuffix();
  }
}

=== FILE: directory.dfy ===
/**
 * The two colon-delimited directories: contacts (`name:number`) and the
 * group-to-project map (`group:project`), their parsers, and the lookups run
 * over them by every bridge variant.
 */
module Directory {
  import opened Wrappers
  import opened JsText

  /** One line of the contact file. */
  datatype ContactEntry = ContactEntry(name: string, number: string)

  /** One line of the group-to-project file. */
  datatype GroupEntry = GroupEntry(group: string, project: string)

  /** What every contact lookup answers when no entry matches. */
  const Unregistered := "Contacto no Registrado"

  /** The project sentinel. */
  const NoProject := "N/A"

  // ---------------------------------------------------------------------------
  // First match
  // ---------------------------------------------------------------------------

  /** `array.find`'s position: the first element satisfying `p`, if any. */
  function FirstIndex<T>(s: seq<T>, p: T -> bool): (r: Option<nat>)
    ensures r.Some? ==> r.value < |s| && p(s[r.value])
    ensures r.Some? ==> forall j :: 0 <= j < r.value ==> !p(s[j])
    ensures r.None? <==> forall j :: 0 <= j < |s| ==> !p(s[j])
    decreases |s|
  {
    if |s| == 0 then None
    else if p(s[0]) then Some(0)
    else
      match FirstIndex(s[1..], p)
      case None => None
      case Some(k) => Some(k + 1)
  }

  // ---------------------------------------------------------------------------
  // Parsing
  // ---------------------------------------------------------------------------

  /** The second colon-separated field of a line that has a colon. */
  function SecondField(line: string): string
    requires ':' in line
  {
    TakeUntil(DropThrough(line, ':'), ':')
  }

  /** A contact line is kept when it has a colon and a non-blank number field. */
  function ParseContactLine(line: string): (r: Option<ContactEntry>)
    ensures r.Some? ==> r.value.number != ""
  {
    var parts := Split(line, ':');
    if |parts| >= 2 then
      var entry := ContactEntry(Trim(parts[0]), Trim(parts[1]));
      if entry.number != "" then Some(entry) else None
    else None
  }

  /** The fields of a contact line, read off the text around its first two colons. */
  lemma ContactLineFields(line: string)
    ensures ParseContactLine(line).Some? <==> ':' in line && Trim(SecondField(line)) != ""
    ensures ParseContactLine(line).Some? ==>
      ParseContactLine(line).value == ContactEntry(Trim(TakeUntil(line, ':')), Trim(SecondField(line)))
  {
    SplitFields(line, ':');
  }

  /** Keeps the entries of the accepted lines, in file order. */
  function ParseContactLines(lines: seq<string>): (r: seq<ContactEntry>)
    ensures |r| <= |lines|
    ensures forall i :: 0 <= i < |r| ==> r[i].number != ""
    decreases |lines|
  {
    if |lines| == 0 then []
    else
      match ParseContactLine(lines[0])
      case Some(e) => [e] + ParseContactLines(lines[1..])
      case None => ParseContactLines(lines[1..])
  }

  /** The contact directory loaded from the text of the contact file. */
  function ParseContacts(text: string): (r: seq<ContactEntry>)
    ensures forall i :: 0 <= i < |r| ==> r[i].number != ""
  {
    ParseContactLines(Split(text, '\n'))
  }

  lemma {:induction false} ParseContactLinesAppend(a: seq<string>, b: seq<string>)
    ensures ParseContactLines(a + b) == ParseContactLines(a) + ParseContactLines(b)
    decreases |a|
  {
    if |a| == 0 {
      assert a + b == b;
    } else {
      assert (a + b)[0] == a[0];
      assert (a + b)[1..] == a[1..] + b;
      ParseContactLinesAppend(a[1..], b);
    }
  }

  /** Appending one line to the file adds exactly that line's entry (if any) at the end. */
  lemma ParseContactsAppendLine(text: string, line: string)
    requires '\n' !in line
    ensures ParseContacts(text + "\n" + line) ==
      ParseContacts(text) + (match ParseContactLine(line) case Some(e) => [e] case None => [])
  {
    SplitAppend(text, line, '\n');
    assert Split(line, '\n') == [line];
    ParseContactLinesAppend(Split(text, '\n'), [line]);
  }

  /** Whitespace before a line's first field is trimmed away with it. */
  lemma ContactLineConsWhitespace(c: char, line: string)
    requires IsWhitespace(c)
    ensures ParseContactLine([c] + line) == ParseContactLine(line)
  {
    SplitCons(c, line, ':');
    TrimConsWhitespace(c, Split(line, ':')[0]);
  }

  /** Whitespace after a line's last field is trimmed away with it. */
  lemma ContactLineSnocWhitespace(line: string, c: char)
    requires IsWhitespace(c)
    ensures ParseContactLine(line + [c]) == ParseContactLine(line)
  {
    SplitSnoc(line, c, ':');
    var p := Split(line, ':');
    TrimSnocWhitespace(p[|p| - 1], c);
  }

  /** Whitespace at the start of the file changes no entry. */
  lemma {:induction false} ParseContactsTrimStart(text: string)
    ensures ParseContacts(TrimStart(text)) == ParseContacts(text)
    decreases |text|
  {
    if |text| > 0 && IsWhitespace(text[0]) {
      var c, rest := text[0], text[1..];
      assert text == [c] + rest;
      if c == '\n' {
        SplitAppend("", rest, '\n');
        assert [c] + rest == "" + ['\n'] + rest;
        assert Split("", '\n') == [""];
        ParseContactLinesAppend([""], Split(rest, '\n'));
        assert ParseContactLine("") == None;
      } else {
        SplitCons(c, rest, '\n');
        var p := Split(rest, '\n');
        ContactLineConsWhitespace(c, p[0]);
        assert Split(text, '\n')[1..] == p[1..];
        HeadTail(p);
        ParseContactLinesAppend([p[0]], p[1..]);
        ParseContactLinesAppend([[c] + p[0]], p[1..]);
      }
      ParseContactsTrimStart(rest);
    }
  }

  /** A trailing newline adds an empty last line, which yields no entry. */
  lemma ParseContactsSnocNewline(text: string)
    ensures ParseContacts(text + "\n") == ParseContacts(text)
  {
    SplitAppend(text, "", '\n');
    assert text + "\n" == text + ['\n'] + "";
    assert Split("", '\n') == [""];
    ParseContactLinesAppend(Split(text, '\n'), [""]);
    assert ParseContactLine("") == None;
  }

  /** Replacing the last line by one that parses the same changes no entry. */
  lemma ParseContactLinesSameLast(init: seq<string>, x: string, y: string)
    requires ParseContactLine(x) == ParseContactLine(y)
    ensures ParseContactLines(init + [x]) == ParseContactLines(init + [y])
  {
    ParseContactLinesAppend(init, [x]);
    ParseContactLinesAppend(init, [y]);
    assert [x][1..] == [] && [y][1..] == [];
    assert ParseContactLines([x]) == ParseContactLines([y]);
  }

  /** A non-empty list is its first element followed by the rest. */
  lemma HeadTail<T>(p: seq<T>)
    requires |p| >= 1
    ensures p == [p[0]] + p[1..]
  {
  }

  /** A non-empty list is its front followed by its last element. */
  lemma InitLast<T>(p: seq<T>)
    requires |p| >= 1
    ensures p == p[..|p| - 1] + [p[|p| - 1]]
  {
  }

  /** Other trailing whitespace lands in the last line's trimmed fields. */
  lemma ParseContactsSnocBlank(text: string, c: char)
    requires IsWhitespace(c) && c != '\n'
    ensures ParseContacts(text + [c]) == ParseContacts(text)
  {
    var p := Split(text, '\n');
    var init, last := p[..|p| - 1], p[|p| - 1];
    SplitSnoc(text, c, '\n');
    InitLast(p);
    ContactLineSnocWhitespace(last, c);
    ParseContactLinesSameLast(init, last, last + [c]);
  }

  /** Whitespace at the end of the file changes no entry. */
  lemma {:induction false} ParseContactsTrimEnd(text: string)
    ensures ParseContacts(TrimEnd(text)) == ParseContacts(text)
    decreases |text|
  {
    if |text| > 0 && IsWhitespace(text[|text| - 1]) {
      var rest := text[..|text| - 1];
      assert text == rest + [text[|text| - 1]];
      if text[|text| - 1] == '\n' {
        ParseContactsSnocNewline(rest);
      } else {
        ParseContactsSnocBlank(rest, text[|text| - 1]);
      }
      ParseContactsTrimEnd(rest);
    }
  }

  /** The directory loaded from `data.trim()` is the one loaded from `data`. */
  lemma ParseContactsTrim(text: string)
    ensures ParseContacts(Trim(text)) == ParseContacts(text)
  {
    ParseContactsTrimStart(text);
    ParseContactsTrimEnd(TrimStart(text));
  }

  /**
   * The stricter contact parser of the older variants: each line is destructured
   * as `[nombre, numero]` and `numero.trim()` throws when the line has no colon,
   * so the whole load fails (`None`; nothing catches the throw and the bridge
   * process ends). Entries with an empty number are kept.
   */
  function ParseContactsStrict(text: string): (r: Option<seq<ContactEntry>>)
    ensures r.Some? <==> forall line :: line in Split(text, '\n') ==> ':' in line
    ensures r.Some? ==> |r.value| == |Split(text, '\n')|
    ensures r.Some? ==> forall i :: 0 <= i < |Split(text, '\n')| ==>
      ':' in Split(text, '\n')[i] &&
      r.value[i] == ContactEntry(Trim(TakeUntil(Split(text, '\n')[i], ':')), Trim(SecondField(Split(text, '\n')[i])))
  {
    var lines := Split(text, '\n');
    var r := StrictLines(lines);
    assert (forall line :: line in lines ==> ':' in line) <==> (forall i :: 0 <= i < |lines| ==> ':' in lines[i]);
    r
  }

  function StrictLines(lines: seq<string>): (r: Option<seq<ContactEntry>>)
    ensures r.Some? <==> forall i :: 0 <= i < |lines| ==> ':' in lines[i]
    ensures r.Some? ==> |r.value| == |lines|
    ensures r.Some? ==> forall i :: 0 <= i < |lines| ==>
      r.value[i] == ContactEntry(Trim(TakeUntil(lines[i], ':')), Trim(SecondField(lines[i])))
    decreases |lines|
  {
    if |lines| == 0 then Some([])
    else
      var parts := Split(lines[0], ':');
      SplitFields(lines[0], ':');
      if |parts| < 2 then None
      else
        match StrictLines(lines[1..])
        case None => None
        case Some(rest) =>
          var entry := ContactEntry(Trim(parts[0]), Trim(parts[1]));
          StrictEntriesCons(lines, entry, rest);
          Some([entry] + rest)
  }

  /** Prepending the entry of the first line extends the line-by-line reading to the whole file. */
  lemma StrictEntriesCons(lines: seq<string>, entry: ContactEntry, rest: seq<ContactEntry>)
    requires |lines| > 0 && ':' in lines[0]
    requires entry == ContactEntry(Trim(TakeUntil(lines[0], ':')), Trim(SecondField(lines[0])))
    requires forall i :: 0 <= i < |lines| - 1 ==> ':' in lines[1..][i]
    requires |rest| == |lines| - 1
    requires forall i :: 0 <= i < |rest| ==>
      rest[i] == ContactEntry(Trim(TakeUntil(lines[1..][i], ':')), Trim(SecondField(lines[1..][i])))
    ensures forall i :: 0 <= i < |lines| ==> ':' in lines[i]
    ensures forall i :: 0 <= i < |lines| ==>
      ([entry] + rest)[i] == ContactEntry(Trim(TakeUntil(lines[i], ':')), Trim(SecondField(lines[i])))
  {
    forall i | 0 < i < |lines|
      ensures ':' in lines[i]
      ensures ([entry] + rest)[i] == ContactEntry(Trim(TakeUntil(lines[i], ':')), Trim(SecondField(lines[i])))
    {
      assert lines[i] == lines[1..][i - 1];
      assert ([entry] + rest)[i] == rest[i - 1];
    }
  }

  /**
   * A contact file that ends with a newline has an empty last line, which has
   * no colon: the older loader throws on it, and since nothing catches that
   * throw the bridge process ends.
   */
  lemma StrictLoaderRejectsTrailingNewline(text: string)
    ensures ParseContactsStrict(text + "\n") == None
  {
    SplitAppend(text, "", '\n');
    assert text + "\n" == text + ['\n'] + "";
    assert Split("", '\n') == [""];
    assert "" in Split(text + "\n", '\n');
  }

  /** The older loader keeps a line with an empty number, which the newer one drops. */
  lemma StrictLoaderKeepsEmptyNumber(name: string)
    requires ':' !in name && '\n' !in name
    ensures ParseContactsStrict(name + ":") == Some([ContactEntry(Trim(name), "")])
    ensures ParseContacts(name + ":") == []
  {
    var line := name + ":";
    assert line == name + [':'] + "";
    assert '\n' !in line;
    SplitWithout(line, '\n');
    SplitWithout(name, ':');
    SplitWithout("", ':');
    SplitAppend(name, "", ':');
    assert Trim("") == "";
    assert ParseContactLine(line) == None;
    assert StrictLines([line][1..]) == Some([]);
    assert [ContactEntry(Trim(name), "")] + [] == [ContactEntry(Trim(name), "")];
  }

  /** A group line is kept when both trimmed fields are non-empty. */
  function ParseGroupLine(line: string): (r: Option<GroupEntry>)
    ensures r.Some? ==> r.value.group != "" && r.value.project != ""
    ensures r.Some? ==> ':' in line && r.value == GroupEntry(Trim(TakeUntil(line, ':')), Trim(SecondField(line)))
  {
    var parts := Split(line, ':');
    SplitFields(line, ':');
    if |parts| >= 2 && Trim(parts[0]) != "" && Trim(parts[1]) != "" then
      Some(GroupEntry(Trim(parts[0]), Trim(parts[1])))
    else None
  }

  /**
   * The group line test of the older variants: `if (grupo && proyecto)` on the
   * UNtrimmed fields, then both are trimmed, so a blank project can be loaded.
   */
  function ParseGroupLineLoose(line: string): (r: Option<GroupEntry>)
  {
    var parts := Split(line, ':');
    if |parts| >= 2 && parts[0] != "" && parts[1] != "" then
      Some(GroupEntry(Trim(parts[0]), Trim(parts[1])))
    else None
  }

  /** The two group-line tests differ only in trimming before the emptiness check. */
  lemma GroupLineFields(line: string)
    ensures ParseGroupLine(line).Some? <==>
      ':' in line && Trim(TakeUntil(line, ':')) != "" && Trim(SecondField(line)) != ""
    ensures ParseGroupLineLoose(line).Some? <==>
      ':' in line && TakeUntil(line, ':') != "" && SecondField(line) != ""
    ensures ParseGroupLine(line).Some? ==> ParseGroupLineLoose(line) == ParseGroupLine(line)
  {
    SplitFields(line, ':');
  }

  /** Every loaded group and project is non-empty. */
  predicate AllFilled(groups: seq<GroupEntry>) {
    forall i :: 0 <= i < |groups| ==> groups[i].group != "" && groups[i].project != ""
  }

  lemma KeptGroupsFilled(g: GroupEntry, rest: seq<GroupEntry>)
    requires g.group != "" && g.project != "" && AllFilled(rest)
    ensures AllFilled([g] + rest)
  {
  }

  /** Keeps the lines the newer group-line test accepts, in file order. */
  function ParseGroupLines(lines: seq<string>): (r: seq<GroupEntry>)
    ensures |r| <= |lines|
    ensures forall i :: 0 <= i < |r| ==> r[i].group != "" && r[i].project != ""
    decreases |lines|
  {
    if |lines| == 0 then []
    else
      var rest := ParseGroupLines(lines[1..]);
      match ParseGroupLine(lines[0])
      case Some(g) => KeptGroupsFilled(g, rest); [g] + rest
      case None => rest
  }

  /** Keeps the lines the older group-line test accepts, in file order. */
  function ParseGroupLinesLoose(lines: seq<string>): (r: seq<GroupEntry>)
    ensures |r| <= |lines|
    decreases |lines|
  {
    if |lines| == 0 then []
    else
      match ParseGroupLineLoose(lines[0])
      case Some(g) => [g] + ParseGroupLinesLoose(lines[1..])
      case None => ParseGroupLinesLoose(lines[1..])
  }

  /** The group-to-project map of the most evolved variants: every loaded field is non-blank. */
  function ParseGroups(text: string): (r: seq<GroupEntry>)
    ensures forall i :: 0 <= i < |r| ==> r[i].group != "" && r[i].project != ""
  {
    ParseGroupLines(Split(text, '\n'))
  }

  /** The group-to-project map of the older variants. */
  function ParseGroupsLoose(text: string): seq<GroupEntry> {
    ParseGroupLinesLoose(Split(text, '\n'))
  }

  /** The group map of two runs of lines is the map of each, in file order. */
  lemma {:induction false} ParseGroupLinesAppend(a: seq<string>, b: seq<string>)
    ensures ParseGroupLines(a + b) == ParseGroupLines(a) + ParseGroupLines(b)
    decreases |a|
  {
    if |a| == 0 {
      assert a + b == b;
    } else {
      assert (a + b)[0] == a[0];
      assert (a + b)[1..] == a[1..] + b;
      ParseGroupLinesAppend(a[1..], b);
    }
  }

  /** The same for the older group-line test. */
  lemma {:induction false} ParseGroupLinesLooseAppend(a: seq<string>, b: seq<string>)
    ensures ParseGroupLinesLoose(a + b) == ParseGroupLinesLoose(a) + ParseGroupLinesLoose(b)
    decreases |a|
  {
    if |a| == 0 {
      assert a + b == b;
    } else {
      assert (a + b)[0] == a[0];
      assert (a + b)[1..] == a[1..] + b;
      ParseGroupLinesLooseAppend(a[1..], b);
    }
  }

  /** Appending one line to the group file adds exactly that line's mapping (if any) at the end. */
  lemma ParseGroupsAppendLine(text: string, line: string)
    requires '\n' !in line
    ensures ParseGroups(text + "\n" + line) ==
      ParseGroups(text) + (match ParseGroupLine(line) case Some(g) => [g] case None => [])
  {
    SplitAppend(text, line, '\n');
    SplitWithout(line, '\n');
    ParseGroupLinesAppend(Split(text, '\n'), [line]);
    ParseGroupLinesSingle(line);
  }

  /** A single line yields its own mapping, if it has one. */
  lemma ParseGroupLinesSingle(line: string)
    ensures ParseGroupLines([line]) == match ParseGroupLine(line) case Some(g) => [g] case None => []
  {
    assert [line][1..] == [];
  }

  /** The same for the older loader and its untrimmed test. */
  lemma ParseGroupsLooseAppendLine(text: string, line: string)
    requires '\n' !in line
    ensures ParseGroupsLoose(text + "\n" + line) ==
      ParseGroupsLoose(text) + (match ParseGroupLineLoose(line) case Some(g) => [g] case None => [])
  {
    SplitAppend(text, line, '\n');
    assert Split(line, '\n') == [line];
    ParseGroupLinesLooseAppend(Split(text, '\n'), [line]);
  }

  /** The older loader keeps a line whose project is only blanks, as an empty project. */
  lemma LooseLoaderKeepsBlankProject(group: string, blank: string)
    requires group != "" && ':' !in group
    requires blank != "" && IsBlank(blank)
    ensures ParseGroupLineLoose(group + ":" + blank) == Some(GroupEntry(Trim(group), ""))
    ensures ParseGroupLine(group + ":" + blank) == None
  {
    var line := group + ":" + blank;
    forall i | 0 <= i < |blank|
      ensures blank[i] != ':'
    {
      assert IsWhitespace(blank[i]);
    }
    SplitWithout(group, ':');
    SplitWithout(blank, ':');
    SplitAppend(group, blank, ':');
    assert line == group + [':'] + blank;
    TrimEmptyIffBlank(blank);
  }

  // ---------------------------------------------------------------------------
  // Contact lookup
  // ---------------------------------------------------------------------------

  /** How a variant compares an incoming id with a stored number. */
  datatype MatchStyle =
    | DigitSuffix      // digits before '@', either digit string ends with the other
    | PrefixSubstring  // text before '@' contains the stored number
    | WholeSubstring   // the whole id contains the stored number

  /** The part of the id the style compares. */
  function LookupKey(style: MatchStyle, id: string): string {
    match style
    case DigitSuffix => Digits(TakeUntil(id, '@'))
    case PrefixSubstring => TakeUntil(id, '@')
    case WholeSubstring => id
  }

  /** Bidirectional suffix containment of two digit strings. */
  predicate SuffixOverlap(a: string, b: string) {
    EndsWith(a, b) || EndsWith(b, a)
  }

  predicate EntryMatches(style: MatchStyle, stored: string, key: string) {
    match style
    case DigitSuffix => SuffixOverlap(key, Digits(stored))
    case _ => Contains(key, stored)
  }

  /** The position of the first entry that matches `id`. */
  function FindContact(dir: seq<ContactEntry>, style: MatchStyle, id: string): (r: Option<nat>)
    ensures r.Some? ==> r.value < |dir| && EntryMatches(style, dir[r.value].number, LookupKey(style, id))
    ensures r.Some? ==> forall j :: 0 <= j < r.value ==> !EntryMatches(style, dir[j].number, LookupKey(style, id))
    ensures r.None? <==> forall j :: 0 <= j < |dir| ==> !EntryMatches(style, dir[j].number, LookupKey(style, id))
  {
    var key := LookupKey(style, id);
    FirstIndex(dir, (e: ContactEntry) => EntryMatches(style, e.number, key))
  }

  /** Whether the variant answers the sentinel before looking (empty or non-string id). */
  predicate Guarded(style: MatchStyle, id: Option<string>) {
    style != WholeSubstring && !Truthy(id)
  }

  /**
   * `buscarNombrePorNumero`: the name of the first matching entry, or the
   * sentinel. The whole-id style has no guard and needs a string id.
   */
  function LookupName(dir: seq<ContactEntry>, style: MatchStyle, id: Option<string>): (r: string)
    requires style == WholeSubstring ==> id.Some?
    ensures Guarded(style, id) ==> r == Unregistered
    ensures !Guarded(style, id) ==>
      match FindContact(dir, style, id.value)
      case Some(i) => r == dir[i].name
      case None => r == Unregistered
  {
    if Guarded(style, id) then Unregistered
    else
      match FindContact(dir, style, id.value)
      case Some(i) => dir[i].name
      case None => Unregistered
  }

  /** An entry appended to a directory in which nothing matched is found exactly when it matches. */
  lemma FindContactAfterMiss(dir: seq<ContactEntry>, e: ContactEntry, style: MatchStyle, id: string)
    requires FindContact(dir, style, id).None?
    ensures FindContact(dir + [e], style, id) ==
      if EntryMatches(style, e.number, LookupKey(style, id)) then Some(|dir|) else None
  {
    var key := LookupKey(style, id);
    var longer := dir + [e];
    forall j | 0 <= j < |dir|
      ensures !EntryMatches(style, longer[j].number, key)
    {
      assert longer[j] == dir[j];
    }
    assert longer[|dir|] == e;
    var r := FindContact(longer, style, id);
    if EntryMatches(style, e.number, key) {
      assert r.Some?;
      assert r.value == |dir|;
    } else {
      assert forall j :: 0 <= j < |longer| ==> !EntryMatches(style, longer[j].number, key);
    }
  }

  /** The suffix relation does not care which side is the stored number. */
  lemma SuffixOverlapSymmetric(a: string, b: string)
    ensures SuffixOverlap(a, b) <==> SuffixOverlap(b, a)
  {
  }

  /**
   * Country-code tolerance: when the digits of the id extend a stored number
   * (or the stored number extends them), the lookup stops at that entry or an
   * earlier one.
   */
  lemma CountryCodeTolerance(dir: seq<ContactEntry>, i: nat, id: string, extra: string)
    requires i < |dir| && id != ""
    requires LookupKey(DigitSuffix, id) == extra + Digits(dir[i].number)
          || Digits(dir[i].number) == extra + LookupKey(DigitSuffix, id)
    ensures FindContact(dir, DigitSuffix, id).Some?
    ensures FindContact(dir, DigitSuffix, id).value <= i
    ensures LookupName(dir, DigitSuffix, Some(id)) == dir[FindContact(dir, DigitSuffix, id).value].name
  {
    var key := LookupKey(DigitSuffix, id);
    var stored := Digits(dir[i].number);
    if key == extra + stored {
      assert key[|key| - |stored|..] == stored;
    } else {
      assert stored[|stored| - |key|..] == key;
    }
    assert EntryMatches(DigitSuffix, dir[i].number, key);
  }

  /**
   * Latent false positive kept from the source: a stored number without digits
   * reduces to "" and `endsWith("")` holds, so that entry answers every id.
   */
  lemma DigitlessEntryMatchesEverything(dir: seq<ContactEntry>, id: string)
    requires |dir| > 0 && id != ""
    requires Digits(dir[0].number) == ""
    ensures LookupName(dir, DigitSuffix, Some(id)) == dir[0].name
  {
    var key := LookupKey(DigitSuffix, id);
    assert key[|key| - 0..] == "";
    assert EntryMatches(DigitSuffix, dir[0].number, key);
  }

  /** Symmetrically, an id with no digits before '@' matches the first entry. */
  lemma DigitlessIdMatchesFirstEntry(dir: seq<ContactEntry>, id: string)
    requires |dir| > 0 && id != ""
    requires Digits(TakeUntil(id, '@')) == ""
    ensures LookupName(dir, DigitSuffix, Some(id)) == dir[0].name
  {
    var stored := Digits(dir[0].number);
    assert stored[|stored| - 0..] == "";
    assert EntryMatches(DigitSuffix, dir[0].number, LookupKey(DigitSuffix, id));
  }

  /**
   * Latent false positive of the substring matchers: a short stored number
   * that occurs anywhere inside the id answers it.
   */
  lemma ShortNumberMatchesAnyContainingId(dir: seq<ContactEntry>, id: string, at: nat)
    requires |dir| > 0 && id != ""
    requires at + |dir[0].number| <= |TakeUntil(id, '@')|
    requires TakeUntil(id, '@')[at..at + |dir[0].number|] == dir[0].number
    ensures LookupName(dir, PrefixSubstring, Some(id)) == dir[0].name
    ensures LookupName(dir, WholeSubstring, Some(id)) == dir[0].name
  {
    var pre := TakeUntil(id, '@');
    ContainsAt(pre, dir[0].number, at);
    assert id[at..at + |dir[0].number|] == pre[at..at + |dir[0].number|];
    ContainsAt(id, dir[0].number, at);
  }

  /** The older loader keeps empty numbers, and an empty number is inside every id. */
  lemma EmptyNumberMatchesEverything(dir: seq<ContactEntry>, id: string)
    requires |dir| > 0 && dir[0].number == ""
    ensures LookupName(dir, WholeSubstring, Some(id)) == dir[0].name
  {
    assert dir[0].number <= id;
  }

  // ---------------------------------------------------------------------------
  // Group-to-project lookup
  // ---------------------------------------------------------------------------

  /** Caseless lookup with an empty-name guard, or exact lookup without one. */
  datatype GroupStyle = Caseless | Exact

  predicate GroupMatches(style: GroupStyle, stored: string, name: string) {
    match style
    case Caseless => ToLower(stored) == ToLower(name)
    case Exact => stored == name
  }

  /** The position of the first mapping for `name`. */
  function FindGroup(groups: seq<GroupEntry>, style: GroupStyle, name: string): (r: Option<nat>)
    ensures r.Some? ==> r.value < |groups| && GroupMatches(style, groups[r.value].group, name)
    ensures r.Some? ==> forall j :: 0 <= j < r.value ==> !GroupMatches(style, groups[j].group, name)
    ensures r.None? <==> forall j :: 0 <= j < |groups| ==> !GroupMatches(style, groups[j].group, name)
  {
    FirstIndex(groups, (g: GroupEntry) => GroupMatches(style, g.group, name))
  }

  /**
   * `obtenerProyectoPorGrupo`: the project of the first mapping, or `fallback`
   * on a miss. The caseless variants answer "N/A" for an empty name first.
   */
  function GroupProject(groups: seq<GroupEntry>, style: GroupStyle, name: string, fallback: string): (r: string)
    ensures style == Caseless && name == "" ==> r == NoProject
    ensures (style == Exact || name != "") ==>
      match FindGroup(groups, style, name)
      case Some(i) => r == groups[i].project
      case None => r == fallback
  {
    if style == Caseless && name == "" then NoProject
    else
      match FindGroup(groups, style, name)
      case Some(i) => groups[i].project
      case None => fallback
  }

  /** A mapped group's project does not depend on the fallback (the mapping takes precedence). */
  lemma MappedGroupIgnoresFallback(groups: seq<GroupEntry>, style: GroupStyle, name: string, f1: string, f2: string)
    requires style == Exact || name != ""
    requires FindGroup(groups, style, name).Some?
    ensures GroupProject(groups, style, name, f1) == GroupProject(groups, style, name, f2)
    ensures GroupProject(groups, style, name, f1) in (set g | g in groups :: g.project)
  {
    var i := FindGroup(groups, style, name).value;
    assert groups[i] in groups;
  }

  /** The caseless lookup gives the same answer for a name and its lower-case form. */
  lemma CaselessLookupIgnoresCase(groups: seq<GroupEntry>, name: string, fallback: string)
    ensures GroupProject(groups, Caseless, ToLower(name), fallback) == GroupProject(groups, Caseless, name, fallback)
  {
    ToLowerIdempotent(name);
    assert forall g :: GroupMatches(Caseless, g, ToLower(name)) <==> GroupMatches(Caseless, g, name);
    assert FindGroup(groups, Caseless, ToLower(name)) == FindGroup(groups, Caseless, name);
  }

  /** With the strict loader and a non-empty fallback, the caseless lookup never answers "". */
  lemma CaselessProjectNonEmpty(groups: seq<GroupEntry>, name: string, fallback: string)
    requires forall i :: 0 <= i < |groups| ==> groups[i].project != ""
    requires fallback != ""
    ensures GroupProject(groups, Caseless, name, fallback) != ""
  {
  }
}

=== FILE: events.dfy ===
/**
 * The raw message event and the filters each bridge variant applies before
 * anything is resolved or stored.
 */
module Events {
  import opened Wrappers
  import opened JsText

  /**
   * The fields of a `whatsapp-web.js` message that the bridges read.
   * `body == None` stands for a missing or non-string body; `timestamp == None`
   * for an undefined timestamp; `remote == None` for a message without
   * `_data.id`; `id` is `message.id.id`.
   */
  datatype Message = Message(
    isStatus: bool,
    body: Option<string>,
    timestamp: Option<nat>,
    isBroadcast: bool,
    fromMe: bool,
    from: string,
    to: string,
    author: Option<string>,
    notifyName: Option<string>,
    remote: Option<string>,
    id: Option<string>)

  /** Why a message is not logged, in the order the filters test. */
  datatype Reason =
    | NoMessage          // `!message`
    | StatusUpdate       // `message.isStatus`
    | NonTextBody        // body missing or not a string
    | BlankBody          // `body.trim() === ''`
    | TimestampEcho      // `String(message.timestamp) === body.trim()`
    | ForeignBroadcast   // `isBroadcast && !fromMe`
    | OwnEchoAsIncoming  // `fromMe && !isOutgoing`

  datatype Verdict = Accept | Reject(reason: Reason)

  /** `String(message.timestamp)`: the decimal seconds, or "undefined". */
  function TimestampText(t: Option<nat>): (r: string)
    ensures t.None? ==> r == "undefined"
    ensures t.Some? ==> r != "" && AllDigits(r) && ParseDecimal(r) == t.value
  {
    match t
    case None => "undefined"
    case Some(n) =>
      DecimalRoundTrip(n);
      DecimalString(n)
  }

  /**
   * The filter of the MariaDB bridge: drop a missing message, a status update,
   * a non-string or blank body, a body that only repeats the timestamp, and a
   * broadcast that the local account did not send.
   */
  function ClassifyMariaDb(m: Option<Message>): (v: Verdict)
    ensures v == Accept <==>
      m.Some? && !m.value.isStatus && m.value.body.Some? && !IsBlank(m.value.body.value)
      && TimestampText(m.value.timestamp) != Trim(m.value.body.value)
      && !(m.value.isBroadcast && !m.value.fromMe)
    ensures v == Reject(NoMessage) <==> m.None?
    ensures v == Reject(BlankBody) ==> m.Some? && m.value.body.Some? && IsBlank(m.value.body.value)
    ensures v == Reject(TimestampEcho) ==> m.Some? && m.value.body.Some? && !IsBlank(m.value.body.value)
  {
    match m
    case None => Reject(NoMessage)
    case Some(msg) =>
      if msg.isStatus then Reject(StatusUpdate)
      else if msg.body.None? then Reject(NonTextBody)
      else
        var body := Trim(msg.body.value);
        TrimEmptyIffBlank(msg.body.value);
        if body == "" then Reject(BlankBody)
        else if TimestampText(msg.timestamp) == body then Reject(TimestampEcho)
        else if msg.isBroadcast && !msg.fromMe then Reject(ForeignBroadcast)
        else Accept
  }

  /** The backup bridge's filter, written with the blank test folded into the first guard. */
  function ClassifyBackup(m: Option<Message>): (v: Verdict)
    ensures v.Reject? ==> v.reason in {NoMessage, StatusUpdate, NonTextBody, BlankBody, TimestampEcho, ForeignBroadcast}
  {
    if m.None? then Reject(NoMessage)
    else if m.value.isStatus then Reject(StatusUpdate)
    else if m.value.body.None? then Reject(NonTextBody)
    else if Trim(m.value.body.value) == "" then Reject(BlankBody)
    else if TimestampText(m.value.timestamp) == Trim(m.value.body.value) then Reject(TimestampEcho)
    else if m.value.isBroadcast && !m.value.fromMe then Reject(ForeignBroadcast)
    else Accept
  }

  /** The backup bridge and the MariaDB bridge filter exactly the same messages, for the same reasons. */
  lemma BackupFilterMatchesMariaDb(m: Option<Message>)
    ensures ClassifyBackup(m) == ClassifyMariaDb(m)
  {
  }

  /**
   * The filter of the older Notion-only bridge: only status updates and
   * falsy or blank bodies are dropped (a non-string body throws inside the
   * handler, so it is not logged either).
   */
  function ClassifyOlder(m: Message): (v: Verdict)
    ensures v == Accept <==> !m.isStatus && Truthy(m.body) && !IsBlank(m.body.value)
    ensures v.Reject? ==> v.reason in {StatusUpdate, NonTextBody, BlankBody}
  {
    if m.isStatus then Reject(StatusUpdate)
    else if !Truthy(m.body) then (if m.body.None? then Reject(NonTextBody) else Reject(BlankBody))
    else
      TrimEmptyIffBlank(m.body.value);
      if Trim(m.body.value) == "" then Reject(BlankBody)
      else Accept
  }

  /**
   * The bot's filter: the older filter plus a guard against a message of the
   * local account being processed as incoming.
   */
  function ClassifyBot(m: Message, outgoing: bool): (v: Verdict)
    ensures v == Accept <==> ClassifyOlder(m) == Accept && !(m.fromMe && !outgoing)
    ensures v == Reject(OwnEchoAsIncoming) <==> ClassifyOlder(m) == Accept && m.fromMe && !outgoing
  {
    if m.isStatus then Reject(StatusUpdate)
    else if !Truthy(m.body) then (if m.body.None? then Reject(NonTextBody) else Reject(BlankBody))
    else if Trim(m.body.value) == "" then Reject(BlankBody)
    else if m.fromMe && !outgoing then Reject(OwnEchoAsIncoming)
    else Accept
  }

  /** Everything the MariaDB bridge logs, the older bridge logs too. */
  lemma MariaDbFilterStricter(m: Message)
    ensures ClassifyMariaDb(Some(m)) == Accept ==> ClassifyOlder(m) == Accept
  {
  }

  /**
   * The older bridge logs a message whose body only repeats its timestamp,
   * which the MariaDB bridge drops.
   */
  lemma OlderFilterKeepsTimestampEcho()
    ensures var m := Message(false, Some("7"), Some(7), false, false, "1@c.us", "2@c.us", None, None, None, None);
      ClassifyOlder(m) == Accept && ClassifyMariaDb(Some(m)) == Reject(TimestampEcho)
  {
    var m := Message(false, Some("7"), Some(7), false, false, "1@c.us", "2@c.us", None, None, None, None);
    assert DigitChar(7) == '7';
    assert TimestampText(Some(7)) == "7";
    assert !IsWhitespace('7');
    TrimOfTrimmed("7");
    assert !IsBlank("7") by { assert !IsWhitespace("7"[0]); }
    assert ClassifyOlder(m) == Accept;
  }

  /** A body that is only whitespace is dropped by every variant. */
  lemma BlankBodyDroppedEverywhere(m: Message, outgoing: bool)
    requires m.body.Some? && IsBlank(m.body.value)
    ensures ClassifyMariaDb(Some(m)).Reject? && ClassifyBackup(Some(m)).Reject?
    ensures ClassifyOlder(m).Reject? && ClassifyBot(m, outgoing).Reject?
  {
    TrimEmptyIffBlank(m.body.value);
  }

  /** `isOutgoing ? 'Salida' : 'Entrada'`. */
  function TypeLabel(outgoing: bool): (r: string)
    ensures r == "Salida" <==> outgoing
    ensures r == "Entrada" <==> !outgoing
  {
    if outgoing then "Salida" else "Entrada"
  }

  // ---------------------------------------------------------------------------
  // Event routing
  // ---------------------------------------------------------------------------

  /** The two client events a bridge subscribes to. */
  datatype ClientEvent = Received | Created

  /**
   * The newer bridges' handlers: `message` skips the local account's messages
   * and processes the rest as incoming; `message_create` processes only the
   * local account's messages, as outgoing. `None` means the handler returns.
   */
  function RouteNewer(e: ClientEvent, m: Message): (r: Option<bool>)
    ensures r.Some? ==> r.value == m.fromMe
    ensures r.Some? <==> (e == Received) != m.fromMe
  {
    match e
    case Received => if m.fromMe then None else Some(false)
    case Created => if m.fromMe then Some(true) else None
  }

  /**
   * The older bridges' handlers: `message` processes everything as incoming;
   * `message_create` processes the local account's messages as outgoing.
   */
  function RouteOlder(e: ClientEvent, m: Message): (r: Option<bool>)
    ensures e == Received ==> r == Some(false)
    ensures e == Created ==> (r.Some? <==> m.fromMe) && (r.Some? ==> r.value)
  {
    match e
    case Received => Some(false)
    case Created => if m.fromMe then Some(true) else None
  }

  /** In the newer bridges a message is processed through exactly one of the two events. */
  lemma NewerRoutingProcessesOnce(m: Message)
    ensures RouteNewer(Received, m).Some? != RouteNewer(Created, m).Some?
  {
  }

  /**
   * In the bot, a message of the local account that arrives through `message`
   * is dropped by its own-echo guard, and through `message_create` it is kept:
   * so the bot, too, logs it once.
   */
  lemma BotOwnMessageLoggedOnce(m: Message)
    requires m.fromMe && ClassifyOlder(m) == Accept
    ensures ClassifyBot(m, RouteOlder(Received, m).value) == Reject(OwnEchoAsIncoming)
    ensures ClassifyBot(m, RouteOlder(Created, m).value) == Accept
  {
  }
}

=== FILE: jstext.dfy ===
/**
 * The JavaScript string operations the bridge relies on, stated over `seq<char>`.
 * A `char` stands for one UTF-16 code unit, as `String.prototype.length` counts them.
 */
module JsText {
  import opened Wrappers

  // ---------------------------------------------------------------------------
  // Truthiness and `||` chains
  // ---------------------------------------------------------------------------

  /** JavaScript truthiness of a value that is either a string or missing. */
  predicate Truthy(o: Option<string>) {
    o.Some? && o.value != ""
  }

  /** `o || fallback` where `o` may be missing and `fallback` is a string. */
  function Pick(o: Option<string>, fallback: string): (r: string)
    ensures Truthy(o) ==> r == o.value
    ensures !Truthy(o) ==> r == fallback
  {
    if Truthy(o) then o.value else fallback
  }

  /** `a || b` for two strings. */
  function OrElse(a: string, b: string): (r: string)
    ensures r == a || r == b
    ensures r == "" ==> b == ""
    ensures a != "" <==> r == a && a != ""
  {
    if a != "" then a else b
  }

  /** `a || b` where both sides may be missing; the result is missing only when `b` is. */
  function FirstTruthy(a: Option<string>, b: Option<string>): (r: Option<string>)
    ensures Truthy(r) <==> Truthy(a) || Truthy(b)
    ensures Truthy(a) ==> r == a
  {
    if Truthy(a) then a else b
  }

  /** Template-literal rendering `${o}`: a missing value prints as "undefined". */
  function Interpolate(o: Option<string>): (r: string)
    ensures o.Some? ==> r == o.value
    ensures o.None? ==> r == "undefined"
  {
    match o
    case Some(s) => s
    case None => "undefined"
  }

  // ---------------------------------------------------------------------------
  // Whitespace and trim
  // ---------------------------------------------------------------------------

  /** The WhiteSpace and LineTerminator code points that `String.prototype.trim` removes. */
  predicate IsWhitespace(c: char) {
    || c == '\t' || c == '\n' || c == '\U{B}' || c == '\U{C}' || c == '\r' || c == ' '
    || c == '\U{A0}' || c == '\U{1680}' || ('\U{2000}' <= c <= '\U{200A}')
    || c == '\U{2028}' || c == '\U{2029}' || c == '\U{202F}' || c == '\U{205F}'
    || c == '\U{3000}' || c == '\U{FEFF}'
  }

  /** A string that `trim()` empties. */
  predicate IsBlank(s: string) {
    forall i :: 0 <= i < |s| ==> IsWhitespace(s[i])
  }

  function TrimStart(s: string): (r: string)
    ensures |r| <= |s| && r == s[|s| - |r|..]
    ensures r == [] || !IsWhitespace(r[0])
    decreases |s|
  {
    if |s| > 0 && IsWhitespace(s[0]) then TrimStart(s[1..]) else s
  }

  function TrimEnd(s: string): (r: string)
    ensures |r| <= |s| && r == s[..|r|]
    ensures r == [] || !IsWhitespace(r[|r| - 1])
    decreases |s|
  {
    if |s| > 0 && IsWhitespace(s[|s| - 1]) then TrimEnd(s[..|s| - 1]) else s
  }

  /** `String.prototype.trim`: the slice left after removing whitespace at both ends. */
  function Trim(s: string): (r: string)
    ensures |r| <= |s|
    ensures r == [] || (!IsWhitespace(r[0]) && !IsWhitespace(r[|r| - 1]))
  {
    TrimEnd(TrimStart(s))
  }

  /** Everything `TrimStart` drops is whitespace. */
  lemma {:induction false} TrimStartDropsWhitespace(s: string)
    ensures forall i :: 0 <= i < |s| - |TrimStart(s)| ==> IsWhitespace(s[i])
    decreases |s|
  {
    if |s| > 0 && IsWhitespace(s[0]) {
      TrimStartDropsWhitespace(s[1..]);
    }
  }

  /** Everything `TrimEnd` drops is whitespace. */
  lemma {:induction false} TrimEndDropsWhitespace(s: string)
    ensures forall i :: |TrimEnd(s)| <= i < |s| ==> IsWhitespace(s[i])
    decreases |s|
  {
    if |s| > 0 && IsWhitespace(s[|s| - 1]) {
      TrimEndDropsWhitespace(s[..|s| - 1]);
    }
  }

  /** `trim()` empties exactly the strings made only of whitespace. */
  lemma TrimEmptyIffBlank(s: string)
    ensures Trim(s) == "" <==> IsBlank(s)
  {
    var t := TrimStart(s);
    TrimStartDropsWhitespace(s);
    TrimEndDropsWhitespace(t);
    if t != [] {
      assert !IsWhitespace(t[0]);
      assert TrimEnd(t) != [];
    }
  }

  /** A string with no whitespace at either end is its own trim. */
  lemma TrimOfTrimmed(s: string)
    requires s == [] || (!IsWhitespace(s[0]) && !IsWhitespace(s[|s| - 1]))
    ensures Trim(s) == s
  {
  }

  /** `trim()` is idempotent. */
  lemma TrimIdempotent(s: string)
    ensures Trim(Trim(s)) == Trim(s)
  {
    TrimOfTrimmed(Trim(s));
  }

  /** Leading whitespace does not survive `trim()`. */
  lemma TrimConsWhitespace(c: char, s: string)
    requires IsWhitespace(c)
    ensures Trim([c] + s) == Trim(s)
  {
    assert ([c] + s)[1..] == s;
  }

  lemma {:induction false} TrimStartSnoc(s: string, c: char)
    ensures TrimStart(s + [c]) == if TrimStart(s) == [] then TrimStart([c]) else TrimStart(s) + [c]
    decreases |s|
  {
    if |s| > 0 {
      assert (s + [c])[0] == s[0];
      assert (s + [c])[1..] == s[1..] + [c];
      if IsWhitespace(s[0]) {
        TrimStartSnoc(s[1..], c);
      }
    } else {
      assert s + [c] == [c];
    }
  }

  /** Trailing whitespace does not survive `trim()`. */
  lemma TrimSnocWhitespace(s: string, c: char)
    requires IsWhitespace(c)
    ensures Trim(s + [c]) == Trim(s)
  {
    TrimStartSnoc(s, c);
    var t := TrimStart(s);
    if t != [] {
      assert (t + [c])[..|t + [c]| - 1] == t;
    } else {
      assert [c][1..] == [];
    }
  }

  // ---------------------------------------------------------------------------
  // Prefix, suffix, substring
  // ---------------------------------------------------------------------------

  /** `s.endsWith(suffix)`. */
  predicate EndsWith(s: string, suffix: string) {
    |suffix| <= |s| && s[|s| - |suffix|..] == suffix
  }

  /** `s.includes(sub)`: `sub` occurs at some position of `s`. */
  predicate Contains(s: string, sub: string)
    decreases |s|
  {
    sub <= s || (|s| > 0 && Contains(s[1..], sub))
  }

  /** An occurrence at position `i` is found by `Contains`. */
  lemma {:induction false} ContainsAt(s: string, sub: string, i: nat)
    requires i + |sub| <= |s| && s[i..i + |sub|] == sub
    ensures Contains(s, sub)
    decreases i
  {
    if i == 0 {
      assert sub <= s;
    } else {
      assert s[1..][i - 1..i - 1 + |sub|] == s[i..i + |sub|];
      ContainsAt(s[1..], sub, i - 1);
    }
  }

  /** A string ends with whatever was appended last. */
  lemma EndsWithAppend(prefix: string, suffix: string)
    ensures EndsWith(prefix + suffix, suffix)
  {
    assert (prefix + suffix)[|prefix|..] == suffix;
  }

  /** A suffix of a suffix is a suffix. */
  lemma EndsWithTrans(s: string, middle: string, suffix: string)
    requires EndsWith(s, middle) && EndsWith(middle, suffix)
    ensures EndsWith(s, suffix)
  {
    assert s[|s| - |suffix|..] == middle[|middle| - |suffix|..];
  }

  /** Every string contains each of its suffixes. */
  lemma EndsWithContains(s: string, suffix: string)
    requires EndsWith(s, suffix)
    ensures Contains(s, suffix)
  {
    ContainsAt(s, suffix, |s| - |suffix|);
  }

  /** A string only contains strings no longer than itself. */
  lemma {:induction false} ContainsShorter(s: string, sub: string)
    requires Contains(s, sub)
    ensures |sub| <= |s|
    decreases |s|
  {
    if !(sub <= s) {
      ContainsShorter(s[1..], sub);
    }
  }

  // ---------------------------------------------------------------------------
  // Splitting on a separator character
  // ---------------------------------------------------------------------------

  /** The first position of `c` in `s`. */
  function IndexOf(s: string, c: char): (r: nat)
    requires c in s
    ensures r < |s| && s[r] == c && c !in s[..r]
  {
    if s[0] == c then 0 else
      var k := IndexOf(s[1..], c);
      assert s[..k + 1] == [s[0]] + s[1..][..k];
      k + 1
  }

  /** The text before the first `c`, or all of `s` when there is none (`s.split(c)[0]`). */
  function TakeUntil(s: string, c: char): (r: string)
    ensures r <= s && c !in r
    ensures c in s ==> |r| < |s| && s[|r|] == c
    ensures c !in s ==> r == s
  {
    if c in s then s[..IndexOf(s, c)] else s
  }

  /** The text after the first `c`. */
  function DropThrough(s: string, c: char): (r: string)
    requires c in s
    ensures s == TakeUntil(s, c) + [c] + r
  {
    s[IndexOf(s, c) + 1..]
  }

  /** Joins non-empty lists of parts with the separator in between (`parts.join(sep)`). */
  function Join(parts: seq<string>, sep: char): string
    requires |parts| >= 1
  {
    if |parts| == 1 then parts[0] else parts[0] + [sep] + Join(parts[1..], sep)
  }

  /** `s.split(sep)` for a one-character separator. */
  function Split(s: string, sep: char): (parts: seq<string>)
    ensures |parts| >= 1
    ensures forall i :: 0 <= i < |parts| ==> sep !in parts[i]
    ensures Join(parts, sep) == s
    decreases |s|
  {
    if sep in s then
      var i := IndexOf(s, sep);
      var rest := Split(s[i + 1..], sep);
      assert s == s[..i] + [sep] + s[i + 1..];
      [s[..i]] + rest
    else [s]
  }

  /** Splitting a string without the separator gives the string alone. */
  lemma SplitWithout(s: string, sep: char)
    requires sep !in s
    ensures Split(s, sep) == [s]
  {
  }

  /** The first two parts of `s.split(sep)` are the text before and between the first two separators. */
  lemma SplitFields(s: string, sep: char)
    ensures Split(s, sep)[0] == TakeUntil(s, sep)
    ensures |Split(s, sep)| >= 2 <==> sep in s
    ensures sep in s ==> Split(s, sep)[1] == TakeUntil(DropThrough(s, sep), sep)
  {
    if sep in s {
      var rest := s[IndexOf(s, sep) + 1..];
      assert Split(s, sep) == [s[..IndexOf(s, sep)]] + Split(rest, sep);
      SplitFields(rest, sep);
    }
  }

  /** A character other than the separator joins the first part. */
  lemma SplitCons(c: char, s: string, sep: char)
    requires c != sep
    ensures Split([c] + s, sep) == [[c] + Split(s, sep)[0]] + Split(s, sep)[1..]
  {
    var t := [c] + s;
    if sep in s {
      var i := IndexOf(s, sep);
      assert t[i + 1] == sep;
      assert t[..i + 1] == [c] + s[..i];
      assert IndexOf(t, sep) == i + 1;
      assert t[i + 2..] == s[i + 1..];
    } else {
      assert sep !in t;
    }
  }

  /** `s.split(sep)` is the text before the first separator followed by the split of the rest. */
  lemma SplitUnfold(s: string, sep: char)
    requires sep in s
    ensures Split(s, sep) == [s[..IndexOf(s, sep)]] + Split(s[IndexOf(s, sep) + 1..], sep)
  {
  }

  /** Extending the last part of `rest` extends the last part of `[x] + rest`. */
  lemma ExtendLastPart(x: string, rest: seq<string>, q: seq<string>, c: char)
    requires |rest| >= 1 && q == rest[..|rest| - 1] + [rest[|rest| - 1] + [c]]
    ensures var p := [x] + rest; [x] + q == p[..|p| - 1] + [p[|p| - 1] + [c]]
  {
    var p := [x] + rest;
    assert p[..|p| - 1] == [x] + rest[..|rest| - 1];
  }

  /** A character other than the separator joins the last part. */
  lemma {:induction false} SplitSnoc(s: string, c: char, sep: char)
    requires c != sep
    ensures var p := Split(s, sep);
      Split(s + [c], sep) == p[..|p| - 1] + [p[|p| - 1] + [c]]
    decreases |s|
  {
    var t := s + [c];
    if sep in s {
      var i := IndexOf(s, sep);
      assert t[i] == sep && t[..i] == s[..i];
      assert IndexOf(t, sep) == i;
      assert t[i + 1..] == s[i + 1..] + [c];
      SplitUnfold(s, sep);
      SplitUnfold(t, sep);
      SplitSnoc(s[i + 1..], c, sep);
      ExtendLastPart(s[..i], Split(s[i + 1..], sep), Split(s[i + 1..] + [c], sep), c);
    } else {
      assert sep !in t;
    }
  }

  lemma {:induction false} JoinAppend(p: seq<string>, q: seq<string>, sep: char)
    requires |p| >= 1 && |q| >= 1
    ensures Join(p + q, sep) == Join(p, sep) + [sep] + Join(q, sep)
    decreases |p|
  {
    if |p| == 1 {
      assert (p + q)[1..] == q;
    } else {
      assert (p + q)[1..] == p[1..] + q;
      JoinAppend(p[1..], q, sep);
    }
  }

  /** The first separator of `a + [sep] + b` sits right after `a` when `a` has none. */
  lemma IndexOfConcat(a: string, b: string, sep: char)
    requires sep !in a
    ensures sep in a + [sep] + b
    ensures IndexOf(a + [sep] + b, sep) == |a|
    ensures (a + [sep] + b)[..|a|] == a && (a + [sep] + b)[|a| + 1..] == b
  {
    var s := a + [sep] + b;
    assert s[|a|] == sep;
  }

  /** `split` undoes `join` when no part holds the separator. */
  lemma {:induction false} SplitJoin(parts: seq<string>, sep: char)
    requires |parts| >= 1
    requires forall i :: 0 <= i < |parts| ==> sep !in parts[i]
    ensures Split(Join(parts, sep), sep) == parts
    decreases |parts|
  {
    if |parts| > 1 {
      var rest := Join(parts[1..], sep);
      assert Join(parts, sep) == parts[0] + [sep] + rest;
      IndexOfConcat(parts[0], rest, sep);
      SplitJoin(parts[1..], sep);
    }
  }

  /** Splitting a concatenation around one separator splits both sides independently. */
  lemma {:induction false} SplitAppend(a: string, b: string, sep: char)
    ensures Split(a + [sep] + b, sep) == Split(a, sep) + Split(b, sep)
  {
    var pa := Split(a, sep);
    var pb := Split(b, sep);
    JoinAppend(pa, pb, sep);
    assert forall i :: 0 <= i < |pa + pb| ==> sep !in (pa + pb)[i] by {
      forall i | 0 <= i < |pa + pb|
        ensures sep !in (pa + pb)[i]
      {
        if i < |pa| { assert (pa + pb)[i] == pa[i]; } else { assert (pa + pb)[i] == pb[i - |pa|]; }
      }
    }
    SplitJoin(pa + pb, sep);
  }

  // ---------------------------------------------------------------------------
  // Digits and case
  // ---------------------------------------------------------------------------

  /** The characters `\d` matches: ASCII digits only. */
  predicate IsDigit(c: char) {
    '0' <= c <= '9'
  }

  predicate AllDigits(s: string) {
    forall i :: 0 <= i < |s| ==> IsDigit(s[i])
  }

  /** `s.replace(/\D/g, '')`: the digits of `s`, in order. */
  function Digits(s: string): (r: string)
    ensures |r| <= |s|
    ensures AllDigits(r)
    ensures AllDigits(s) ==> r == s
    decreases |s|
  {
    if |s| == 0 then [] else (if IsDigit(s[0]) then [s[0]] else []) + Digits(s[1..])
  }

  lemma {:induction false} DigitsAppend(a: string, b: string)
    ensures Digits(a + b) == Digits(a) + Digits(b)
    decreases |a|
  {
    if |a| > 0 {
      assert (a + b)[1..] == a[1..] + b;
      DigitsAppend(a[1..], b);
    } else {
      assert a + b == b;
    }
  }

  /** `toLowerCase` on one code unit, for the ASCII and Latin-1 upper-case letters. */
  function LowerChar(c: char): (r: char)
    ensures IsDigit(c) ==> r == c
  {
    if 'A' <= c <= 'Z' || ('\U{C0}' <= c <= '\U{DE}' && c != '\U{D7}') then
      (c as int + 32) as char
    else c
  }

  /** `s.toLowerCase()`. */
  function ToLower(s: string): (r: string)
    ensures |r| == |s|
    ensures forall i :: 0 <= i < |s| ==> r[i] == LowerChar(s[i])
  {
    seq(|s|, i requires 0 <= i < |s| => LowerChar(s[i]))
  }

  /** Lower-casing twice changes nothing more. */
  lemma ToLowerIdempotent(s: string)
    ensures ToLower(ToLower(s)) == ToLower(s)
  {
  }

  // ---------------------------------------------------------------------------
  // Decimal numbers
  // ---------------------------------------------------------------------------

  function DigitChar(d: nat): (c: char)
    requires d < 10
    ensures IsDigit(c)
  {
    ('0' as int + d) as char
  }

  function DigitValue(c: char): (d: nat)
    requires IsDigit(c)
    ensures d < 10 && DigitChar(d) == c
  {
    c as int - '0' as int
  }

  /** `String(n)` for a non-negative integer: decimal, no leading zeros. */
  function DecimalString(n: nat): (r: string)
    ensures |r| >= 1 && AllDigits(r)
    ensures r[0] == '0' <==> n == 0
    decreases n
  {
    if n < 10 then [DigitChar(n)] else DecimalString(n / 10) + [DigitChar(n % 10)]
  }

  /** Reads a string of decimal digits back into a number. */
  function ParseDecimal(s: string): nat
    requires AllDigits(s)
    decreases |s|
  {
    if |s| == 0 then 0 else ParseDecimal(s[..|s| - 1]) * 10 + DigitValue(s[|s| - 1])
  }

  /** Reading back the decimal rendering of `n` yields `n`. */
  lemma {:induction false} DecimalRoundTrip(n: nat)
    ensures ParseDecimal(DecimalString(n)) == n
    decreases n
  {
    var s := DecimalString(n);
    if n >= 10 {
      assert s[..|s| - 1] == DecimalString(n / 10);
      DecimalRoundTrip(n / 10);
    } else {
      assert s[..|s| - 1] == [];
    }
  }
}

=== FILE: lognames.dfy ===
/**
 * The names of the MariaDB bridge's daily log directory and files, built
 * from the calendar fields of a date with Spanish month and weekday names.
 */
module LogNames {
  import opened Wrappers
  import opened JsText

  const MonthNames: seq<string> := [
    "Enero", "Febrero", "Marzo", "Abril", "Mayo", "Junio",
    "Julio", "Agosto", "Septiembre", "Octubre", "Noviembre", "Diciembre"]

  const DayNames: seq<string> := [
    "Domingo", "Lunes", "Martes", "Miércoles", "Jueves", "Viernes", "Sábado"]

  /**
   * The local calendar fields of a `Date`: `getFullYear()`, `getMonth()`
   * (0 = January), `getDate()` and `getDay()` (0 = Sunday).
   */
  datatype CalendarDate = CalendarDate(year: nat, month: nat, day: nat, weekday: nat)

  predicate ValidDate(d: CalendarDate) {
    d.month < 12 && 1 <= d.day <= 31 && d.weekday < 7
  }

  /** `String(n).padStart(2, '0')`: at least two digits, never cut, reading back as `n`. */
  function Pad2(n: nat): (r: string)
    ensures AllDigits(r) && |r| >= 2
    ensures n < 100 ==> |r| == 2
    ensures ParseDecimal(r) == n
  {
    var s := DecimalString(n);
    DecimalRoundTrip(n);
    if |s| < 2 then
      var r := "0" + s;
      assert r[..|r| - 1] == "0";
      r
    else
      assert n >= 100 ==> |s| > 2 by {
        if n >= 100 { assert DecimalString(n / 10) == s[..|s| - 1]; }
      }
      s
  }

  /** `DD-MM-YYYY`, the stamp shared by the day directory and both file names. */
  function DateStamp(d: CalendarDate): string {
    Pad2(d.day) + "-" + Pad2(d.month + 1) + "-" + DecimalString(d.year)
  }

  /** `YYYY_MM_<month name>`. */
  function MonthDirName(d: CalendarDate): string
    requires ValidDate(d)
  {
    DecimalString(d.year) + "_" + Pad2(d.month + 1) + "_" + MonthNames[d.month]
  }

  /** `DD-MM-YYYY_<weekday name>`. */
  function DayDirName(d: CalendarDate): string
    requires ValidDate(d)
  {
    DateStamp(d) + "_" + DayNames[d.weekday]
  }

  /**
   * `getDailyLogDirectory`, as path segments: the base directory, the month
   * directory and the day directory; only the base when the day directory
   * neither exists nor can be created.
   */
  function DailyDirectory(base: seq<string>, d: CalendarDate, available: bool): (r: seq<string>)
    requires ValidDate(d)
    ensures |r| >= |base| && r[..|base|] == base
    ensures available ==> |r| == |base| + 2 && r[|base|] == MonthDirName(d)
    ensures available ==> Split(r[|base| + 1], '_') == [DateStamp(d), DayNames[d.weekday]]
    ensures !available ==> r == base
  {
    if available then
      var day := DayDirName(d);
      StampHasNoUnderscore(d);
      DayNameHasNoUnderscore(d.weekday);
      assert day == DateStamp(d) + ['_'] + DayNames[d.weekday];
      SplitAppend(DateStamp(d), DayNames[d.weekday], '_');
      SplitWithout(DateStamp(d), '_');
      SplitWithout(DayNames[d.weekday], '_');
      base + [MonthDirName(d), day]
    else base
  }

  /** `whatsapp-log-DD-MM-YYYY.log`. */
  function LogFileName(d: CalendarDate): string {
    "whatsapp-log-" + DateStamp(d) + ".log"
  }

  /** `mensajes-DD-MM-YYYY.log`. */
  function MessageFileName(d: CalendarDate): string {
    "mensajes-" + DateStamp(d) + ".log"
  }

  /**
   * `getLogFilePath`/`getMessageLogFilePath`: the clock is read once for the
   * directory and once more for the file name, so the two dates may differ.
   */
  function LogFilePath(base: seq<string>, dirDate: CalendarDate, fileDate: CalendarDate, available: bool, messages: bool): (r: seq<string>)
    requires ValidDate(dirDate)
    ensures |r| >= 1 && r[..|r| - 1] == DailyDirectory(base, dirDate, available)
    ensures r[|r| - 1] == if messages then MessageFileName(fileDate) else LogFileName(fileDate)
  {
    DailyDirectory(base, dirDate, available) + [if messages then MessageFileName(fileDate) else LogFileName(fileDate)]
  }

  // ---------------------------------------------------------------------------
  // Reading a stamp back
  // ---------------------------------------------------------------------------

  /** The numbers in a `DD-MM-YYYY` stamp: day, month (1 = January) and year. */
  datatype Stamp = Stamp(day: nat, month: nat, year: nat)

  /** Reads a stamp of three non-empty digit fields separated by '-'. */
  function ParseStamp(s: string): (r: Option<Stamp>)
    ensures r.Some? ==> |Split(s, '-')| == 3
  {
    var parts := Split(s, '-');
    if |parts| == 3 && AllDigits(parts[0]) && AllDigits(parts[1]) && AllDigits(parts[2])
       && parts[0] != "" && parts[1] != "" && parts[2] != ""
    then Some(Stamp(ParseDecimal(parts[0]), ParseDecimal(parts[1]), ParseDecimal(parts[2])))
    else None
  }

  /** A digit string holds no separator. */
  lemma DigitsHaveNoSeparator(s: string, sep: char)
    requires AllDigits(s) && !IsDigit(sep)
    ensures sep !in s
  {
    forall i | 0 <= i < |s|
      ensures s[i] != sep
    {
      assert IsDigit(s[i]);
    }
  }

  lemma StampHasNoUnderscore(d: CalendarDate)
    ensures '_' !in DateStamp(d)
  {
    DigitsHaveNoSeparator(Pad2(d.day), '_');
    DigitsHaveNoSeparator(Pad2(d.month + 1), '_');
    DigitsHaveNoSeparator(DecimalString(d.year), '_');
  }

  /** Three separator-free fields joined by the separator split back into the three fields. */
  lemma SplitThree(a: string, b: string, c: string, sep: char)
    requires sep !in a && sep !in b && sep !in c
    ensures Split(a + [sep] + b + [sep] + c, sep) == [a, b, c]
  {
    SplitWithout(a, sep);
    SplitWithout(b, sep);
    SplitWithout(c, sep);
    SplitAppend(a, b, sep);
    SplitAppend(a + [sep] + b, c, sep);
  }

  /** The fields of a stamp, split at its two dashes. */
  lemma StampFields(d: CalendarDate)
    ensures Split(DateStamp(d), '-') == [Pad2(d.day), Pad2(d.month + 1), DecimalString(d.year)]
  {
    var a, b, c := Pad2(d.day), Pad2(d.month + 1), DecimalString(d.year);
    DigitsHaveNoSeparator(a, '-');
    DigitsHaveNoSeparator(b, '-');
    DigitsHaveNoSeparator(c, '-');
    SplitThree(a, b, c, '-');
  }

  /** A stamp reads back as the day, the month counted from 1, and the year of its date. */
  lemma StampRoundTrip(d: CalendarDate)
    ensures ParseStamp(DateStamp(d)) == Some(Stamp(d.day, d.month + 1, d.year))
  {
    StampFields(d);
    DecimalRoundTrip(d.year);
  }

  /** Two dates share a stamp exactly when they fall on the same calendar day. */
  lemma StampInjective(a: CalendarDate, b: CalendarDate)
    ensures DateStamp(a) == DateStamp(b) <==> a.day == b.day && a.month == b.month && a.year == b.year
  {
    if DateStamp(a) == DateStamp(b) {
      StampRoundTrip(a);
      StampRoundTrip(b);
    }
  }

  /** No Spanish weekday name contains an underscore. */
  lemma DayNameHasNoUnderscore(w: nat)
    requires w < 7
    ensures '_' !in DayNames[w]
  {
  }

  /** No month name holds an underscore. */
  lemma MonthNameHasNoUnderscore(m: nat)
    requires m < 12
    ensures '_' !in MonthNames[m]
  {
  }

  /** The month directory names the year, the month counted from 1 and the month's Spanish name. */
  lemma MonthDirFields(d: CalendarDate)
    requires ValidDate(d)
    ensures Split(MonthDirName(d), '_') == [DecimalString(d.year), Pad2(d.month + 1), MonthNames[d.month]]
    ensures ParseDecimal(Split(MonthDirName(d), '_')[1]) == d.month + 1
  {
    var a, b, c := DecimalString(d.year), Pad2(d.month + 1), MonthNames[d.month];
    DigitsHaveNoSeparator(a, '_');
    DigitsHaveNoSeparator(b, '_');
    MonthNameHasNoUnderscore(d.month);
    SplitThree(a, b, c, '_');
  }

  /**
   * When both clock reads fall on the same day, the file's stamp is the one
   * its day directory starts with; when they fall on different days (a call
   * across midnight) the file lands in the previous day's directory under
   * the next day's name.
   */
  lemma FileStampMatchesDirectory(base: seq<string>, dirDate: CalendarDate, fileDate: CalendarDate, messages: bool)
    requires ValidDate(dirDate)
    ensures var p := LogFilePath(base, dirDate, fileDate, true, messages);
      (Split(p[|base| + 1], '_')[0] == DateStamp(fileDate)) <==>
      (dirDate.day == fileDate.day && dirDate.month == fileDate.month && dirDate.year == fileDate.year)
  {
    var p := LogFilePath(base, dirDate, fileDate, true, messages);
    assert p[|base| + 1] == DailyDirectory(base, dirDate, true)[|base| + 1];
    StampInjective(dirDate, fileDate);
  }
}

=== FILE: registration.dfy ===
/**
 * `agregarContactoNoRegistrado`: auto-registration of an unknown sender as a
 * pure step from the contact file's text to the new text and the directory
 * reloaded from it.
 */
module Registration {
  import opened Wrappers
  import opened JsText
  import opened Directory

  /** The contact file's text together with the directory held in memory. */
  datatype Registry = Registry(text: string, contacts: seq<ContactEntry>)

  /** The directory in memory is the one the newer loader reads from the text. */
  predicate Consistent(reg: Registry) {
    reg.contacts == ParseContacts(reg.text)
  }

  /** The registry at start-up: the directory is loaded from the file's text. */
  function Load(text: string): (r: Registry)
    ensures Consistent(r) && r.text == text
  {
    Registry(text, ParseContacts(text))
  }

  /** The line written for a new contact, `${nombre}:${numero}`. */
  function ContactLine(name: string, number: string): string {
    name + ":" + number
  }

  /** The new file text: the trimmed old text, a newline and the line, or just the line. */
  function AppendLine(text: string, line: string): (r: string)
    ensures EndsWith(r, line)
    ensures Trim(text) == "" <==> r == line
    ensures '\n' !in line ==>
      Split(r, '\n') == (if Trim(text) == "" then [] else Split(Trim(text), '\n')) + [line]
  {
    var t := Trim(text);
    var r := if t != "" then t + "\n" + line else line;
    assert '\n' !in line ==> Split(r, '\n') == (if t == "" then [] else Split(t, '\n')) + [line] by {
      if '\n' !in line {
        SplitWithout(line, '\n');
        if t != "" {
          assert r == t + ['\n'] + line;
          SplitAppend(t, line, '\n');
        }
      }
    }
    r
  }

  /**
   * The newer registration: nothing happens when the file already holds
   * ":" + number anywhere; otherwise the line is appended and the directory
   * reloaded from the new text.
   */
  function Register(reg: Registry, name: string, number: string): (r: Registry)
    ensures Contains(reg.text, ":" + number) ==> r == reg
    ensures !Contains(reg.text, ":" + number) ==>
      r.text == AppendLine(reg.text, ContactLine(name, number)) && Consistent(r)
  {
    if Contains(reg.text, ":" + number) then reg
    else
      var text := AppendLine(reg.text, ContactLine(name, number));
      Registry(text, ParseContacts(text))
  }

  /** After registration the file always holds ":" + number. */
  lemma RegisterRecordsNumber(reg: Registry, name: string, number: string)
    ensures Contains(Register(reg, name, number).text, ":" + number)
  {
    if !Contains(reg.text, ":" + number) {
      var line := ContactLine(name, number);
      var text := AppendLine(reg.text, line);
      var suffix := ":" + number;
      assert line == name + suffix;
      EndsWithAppend(name, suffix);
      EndsWithTrans(text, line, suffix);
      EndsWithContains(text, suffix);
    }
  }

  /** Registering the same number again, under any name, changes nothing. */
  lemma RegisterIdempotent(reg: Registry, name: string, other: string, number: string)
    ensures Register(Register(reg, name, number), other, number) == Register(reg, name, number)
  {
    RegisterRecordsNumber(reg, name, number);
  }

  /** A line without inner colons or newlines parses to its trimmed fields. */
  lemma ContactLineParses(name: string, number: string)
    requires ':' !in name && ':' !in number
    requires Trim(number) != ""
    ensures ParseContactLine(ContactLine(name, number)) == Some(ContactEntry(Trim(name), Trim(number)))
  {
    SplitAppend(name, number, ':');
    assert ContactLine(name, number) == name + [':'] + number;
    assert Split(name, ':') == [name] && Split(number, ':') == [number];
  }

  /**
   * Registering a new number keeps every existing entry, in order, and adds
   * exactly the new one at the end.
   */
  lemma RegisterAppendsEntry(reg: Registry, name: string, number: string)
    requires Consistent(reg)
    requires !Contains(reg.text, ":" + number)
    requires ':' !in name && ':' !in number && '\n' !in name && '\n' !in number
    requires Trim(number) != ""
    ensures Register(reg, name, number).contacts == reg.contacts + [ContactEntry(Trim(name), Trim(number))]
  {
    var line := ContactLine(name, number);
    var t := Trim(reg.text);
    ContactLineParses(name, number);
    ParseContactsTrim(reg.text);
    assert '\n' !in line;
    if t != "" {
      ParseContactsAppendLine(t, line);
    } else {
      assert Split("", '\n') == [""];
      assert ParseContactLine("") == None;
      assert Split(line, '\n') == [line];
      assert ParseContactLines([line]) == [ContactEntry(Trim(name), Trim(number))];
    }
  }

  // ---------------------------------------------------------------------------
  // The older registration (no duplicate check, strict reload)
  // ---------------------------------------------------------------------------

  /**
   * The older variants' file after registration and the directory reload.
   * `None` marks a reload that throws; nothing catches that throw, so the
   * bridge process ends there.
   */
  datatype Appended = Appended(text: string, contacts: Option<seq<ContactEntry>>)

  /** The older registration: always appends, then reloads with the strict parser. */
  function AppendContact(text: string, name: string, number: string): (r: Appended)
    ensures EndsWith(r.text, ContactLine(name, number))
    ensures '\n' !in name && '\n' !in number ==>
      Split(r.text, '\n') == (if Trim(text) == "" then [] else Split(Trim(text), '\n')) + [ContactLine(name, number)]
    ensures r.contacts.Some? <==> forall line :: line in Split(r.text, '\n') ==> ':' in line
  {
    assert '\n' !in name && '\n' !in number ==> '\n' !in ContactLine(name, number);
    var t := AppendLine(text, ContactLine(name, number));
    Appended(t, ParseContactsStrict(t))
  }

  /** The fields the strict reader takes from a new contact's line. */
  lemma ContactLineFieldsStrict(name: string, number: string)
    requires ':' !in name
    ensures ':' in ContactLine(name, number)
    ensures TakeUntil(ContactLine(name, number), ':') == name
    ensures SecondField(ContactLine(name, number)) == TakeUntil(number, ':')
  {
    var line := ContactLine(name, number);
    assert line == name + [':'] + number;
    assert line[|name|] == ':';
    SplitAppend(name, number, ':');
    SplitWithout(name, ':');
    SplitFields(line, ':');
    SplitFields(number, ':');
  }

  /**
   * The older reload succeeds exactly when every line of the trimmed old text
   * has a colon, and then its last entry is the new contact.
   */
  lemma AppendContactReloadsNewEntry(text: string, name: string, number: string)
    requires ':' !in name && '\n' !in name && '\n' !in number
    ensures AppendContact(text, name, number).contacts.Some? <==>
      Trim(text) == "" || forall line :: line in Split(Trim(text), '\n') ==> ':' in line
    ensures var c := AppendContact(text, name, number).contacts;
      c.Some? ==> |c.value| >= 1 && c.value[|c.value| - 1] == ContactEntry(Trim(name), Trim(TakeUntil(number, ':')))
  {
    var line := ContactLine(name, number);
    var r := AppendContact(text, name, number);
    var before := if Trim(text) == "" then [] else Split(Trim(text), '\n');
    var lines := Split(r.text, '\n');
    ContactLineFieldsStrict(name, number);
    assert lines == before + [line];
    assert lines[|lines| - 1] == line;
    assert (forall l :: l in lines ==> ':' in l) <==> (forall l :: l in before ==> ':' in l);
    if r.contacts.Some? {
      assert |r.contacts.value| == |lines|;
    }
  }

  /**
   * With no duplicate check, registering the same contact twice leaves two
   * copies of its line at the end of the file.
   */
  lemma AppendContactTwiceDuplicates(text: string, name: string, number: string)
    requires name != "" && !IsWhitespace(name[0]) && number != "" && !IsWhitespace(number[|number| - 1])
    ensures var line := ContactLine(name, number);
      AppendContact(AppendContact(text, name, number).text, name, number).text ==
      AppendLine(text, line) + "\n" + line
  {
    var line := ContactLine(name, number);
    var once := AppendLine(text, line);
    assert line[0] == name[0] && line[|line| - 1] == number[|number| - 1];
    if Trim(text) != "" {
      var t := Trim(text);
      assert once[0] == t[0] && once[|once| - 1] == line[|line| - 1];
    }
    TrimOfTrimmed(once);
  }

  /** The newer registration, run twice on the same contact, writes it once. */
  lemma RegisterTwiceWritesOnce(reg: Registry, name: string, number: string)
    requires !Contains(reg.text, ":" + number)
    ensures Register(Register(reg, name, number), name, number).text ==
      AppendLine(reg.text, ContactLine(name, number))
  {
    RegisterIdempotent(reg, name, name, number);
  }
}

=== FILE: resolution.dfy ===
/**
 * Identity and project resolution: how each bridge variant picks sender,
 * recipient, phones, group and project for an accepted message, and when it
 * auto-registers an unknown sender.
 */
module Resolution {
  import opened Wrappers
  import opened JsText
  import opened Directory
  import opened Registration
  import opened Events

  /** The chat of a message (`message.getChat()`). */
  datatype Chat = Chat(isGroup: bool, name: Option<string>)

  /** A profile fetched from the client (`getContact`, `getContactById`). */
  datatype Profile = Profile(pushname: Option<string>, name: Option<string>)

  /** The local account (`client.info`): its display name and serialized id. */
  datatype Account = Account(pushname: Option<string>, ownNumber: string)

  /** The values a bridge hands to its sinks; a phone is `None` where the source passes `undefined`. */
  datatype Resolved = Resolved(
    sender: string,
    recipient: string,
    senderPhone: Option<string>,
    recipientPhone: Option<string>,
    group: string,
    project: string,
    kind: string)

  /** The resolved values and the contact registry after any auto-registration. */
  datatype Outcome = Outcome(fields: Resolved, registry: Registry)

  /** A resolved name and the registry after any auto-registration. */
  datatype Named = Named(name: string, registry: Registry)

  const Me := "Jesús Camero (yo)"
  const UnknownMember := "Miembro Desconocido"
  const UnknownContact := "Contacto Desconocido"
  const UnknownGroup := "Grupo Desconocido"
  const NoAuthorId := "Miembro Desconocido (Sin Author ID)"

  /** `contact.pushname || contact.name`. */
  function ProfileName(p: Profile): (r: Option<string>)
    ensures Truthy(r) <==> Truthy(p.pushname) || Truthy(p.name)
    ensures Truthy(p.pushname) ==> r == p.pushname
  {
    FirstTruthy(p.pushname, p.name)
  }

  /** `chat.name || 'Grupo Desconocido'`: the group name of a group chat, never empty. */
  function GroupName(chat: Chat): (r: string)
    ensures r != ""
    ensures Truthy(chat.name) ==> r == chat.name.value
  {
    Pick(chat.name, UnknownGroup)
  }

  // ---------------------------------------------------------------------------
  // The inbound-sender block shared by the two newer bridges
  // ---------------------------------------------------------------------------

  /**
   * The sender of an incoming message: the profile name, else the directory
   * name, else `unknown`. When the result is a sentinel but a profile name
   * exists, the profile name is registered and used. When the directory does
   * not know the id but a profile name exists, the profile name is registered
   * and the directory is asked again.
   */
  function InboundSender(reg: Registry, style: MatchStyle, id: Option<string>, profileName: Option<string>, unknown: string): (r: Named)
    requires style != WholeSubstring
    ensures !Truthy(profileName) ==> r.registry == reg && r.name == OrElse(LookupName(reg.contacts, style, id), unknown)
    ensures Truthy(profileName) && (LookupName(reg.contacts, style, id) != Unregistered || profileName.value in {unknown, Unregistered})
      ==> r.name == profileName.value
    ensures Truthy(profileName) && LookupName(reg.contacts, style, id) != Unregistered && profileName.value !in {unknown, Unregistered}
      ==> r.registry == reg
    ensures Truthy(profileName) && LookupName(reg.contacts, style, id) == Unregistered && profileName.value !in {unknown, Unregistered}
      ==> r.registry == Register(reg, profileName.value, Interpolate(id)) && r.name == LookupName(r.registry.contacts, style, id)
    ensures Truthy(profileName) && profileName.value in {unknown, Unregistered}
      ==> r.registry == Register(reg, profileName.value, Interpolate(id))
    ensures r.registry == reg || (Truthy(profileName) && r.registry == Register(reg, profileName.value, Interpolate(id)))
    ensures Consistent(reg) ==> Consistent(r.registry)
  {
    var looked := LookupName(reg.contacts, style, id);
    var first := Pick(profileName, OrElse(looked, unknown));
    if first == unknown || first == Unregistered then
      if Truthy(profileName) then Named(profileName.value, Register(reg, profileName.value, Interpolate(id)))
      else Named(first, reg)
    else if looked == Unregistered && Truthy(profileName) then
      var after := Register(reg, profileName.value, Interpolate(id));
      Named(LookupName(after.contacts, style, id), after)
    else Named(first, reg)
  }

  /**
   * After a new number is registered in a directory that did not match it,
   * the lookup of that id finds the new entry exactly when the matcher
   * accepts the registered number for it.
   */
  lemma LookupAfterRegister(reg: Registry, style: MatchStyle, id: string, name: string)
    requires Consistent(reg)
    requires id != "" && FindContact(reg.contacts, style, id).None?
    requires !Contains(reg.text, ":" + id)
    requires ':' !in id && '\n' !in id && ':' !in name && '\n' !in name
    requires Trim(id) != ""
    ensures LookupName(Register(reg, name, id).contacts, style, Some(id)) ==
      if EntryMatches(style, Trim(id), LookupKey(style, id)) then Trim(name) else Unregistered
  {
    RegisterAppendsEntry(reg, name, id);
    var e := ContactEntry(Trim(name), Trim(id));
    FindContactAfterMiss(reg.contacts, e, style, id);
    var dir := reg.contacts + [e];
    assert dir[|reg.contacts|] == e;
    assert Register(reg, name, id).contacts == dir;
    assert !Guarded(style, Some(id));
    if EntryMatches(style, Trim(id), LookupKey(style, id)) {
      assert FindContact(dir, style, id) == Some(|reg.contacts|);
    } else {
      assert FindContact(dir, style, id) == None;
    }
  }

  /** The second lookup of the inbound-sender block, after a miss with a usable profile name. */
  lemma InboundSenderRelooks(reg: Registry, style: MatchStyle, id: Option<string>, profileName: Option<string>, unknown: string)
    requires style != WholeSubstring
    requires Truthy(profileName) && profileName.value !in {unknown, Unregistered}
    requires LookupName(reg.contacts, style, id) == Unregistered
    ensures InboundSender(reg, style, id, profileName, unknown).name ==
      LookupName(Register(reg, profileName.value, Interpolate(id)).contacts, style, id)
  {
  }

  /**
   * A sender id the directory does not match and the file does not hold, in
   * the shape the client produces (no surrounding whitespace, no ':' or
   * newline), with a profile name free of ':' and newlines.
   */
  predicate UnknownSender(reg: Registry, style: MatchStyle, id: string, name: string) {
    Consistent(reg) && id != "" && FindContact(reg.contacts, style, id).None?
    && !Contains(reg.text, ":" + id)
    && !IsWhitespace(id[0]) && !IsWhitespace(id[|id| - 1])
    && ':' !in id && '\n' !in id && ':' !in name && '\n' !in name
  }

  /** An id whose digits all lie before the '@' matches its own digits under the suffix matcher. */
  lemma OwnIdMatchesSuffix(id: string)
    requires Digits(id) == Digits(TakeUntil(id, '@'))
    ensures EntryMatches(DigitSuffix, id, LookupKey(DigitSuffix, id))
  {
    var k := Digits(id);
    assert EndsWith(k, k) by { assert k[|k| - |k|..] == k; }
  }

  /** Both lookups of an unknown id under the suffix matcher: a miss, then the registered name. */
  lemma SuffixLookupAfterRegister(reg: Registry, id: string, name: string)
    requires UnknownSender(reg, DigitSuffix, id, name)
    requires Digits(id) == Digits(TakeUntil(id, '@'))
    ensures LookupName(reg.contacts, DigitSuffix, Some(id)) == Unregistered
    ensures LookupName(Register(reg, name, id).contacts, DigitSuffix, Some(id)) == Trim(name)
  {
    TrimOfTrimmed(id);
    OwnIdMatchesSuffix(id);
    LookupAfterRegister(reg, DigitSuffix, id, name);
  }

  /**
   * With the digit-suffix matcher, an unknown sender with a profile name is
   * registered and found again on the second lookup, under the trimmed
   * profile name.
   */
  lemma SuffixMatcherFindsRegisteredSender(reg: Registry, id: string, name: string, unknown: string)
    requires UnknownSender(reg, DigitSuffix, id, name)
    requires Digits(id) == Digits(TakeUntil(id, '@'))
    requires name != "" && name != unknown && name != Unregistered
    ensures InboundSender(reg, DigitSuffix, Some(id), Some(name), unknown).name == Trim(name)
  {
    SuffixLookupAfterRegister(reg, id, name);
    assert Interpolate(Some(id)) == id;
    InboundSenderRelooks(reg, DigitSuffix, Some(id), Some(name), unknown);
  }

  /**
   * With the before-'@' substring matcher, the full id that gets registered
   * is longer than the part the lookup searches, so the second lookup misses
   * and the sender is recorded as "Contacto no Registrado" although the
   * profile name is known.
   */
  lemma SubstringMatcherLosesRegisteredSender(reg: Registry, id: string, name: string, unknown: string)
    requires UnknownSender(reg, PrefixSubstring, id, name) && '@' in id
    requires name != "" && name != unknown && name != Unregistered
    ensures InboundSender(reg, PrefixSubstring, Some(id), Some(name), unknown).name == Unregistered
  {
    TrimOfTrimmed(id);
    LookupAfterRegister(reg, PrefixSubstring, id, name);
    var key := LookupKey(PrefixSubstring, id);
    assert !Contains(key, id) by {
      if Contains(key, id) {
        ContainsShorter(key, id);
      }
    }
  }

  /**
   * The same sender keeps being recorded as "Contacto no Registrado" on every
   * later message: the registration is then a no-op and the lookup still misses.
   */
  lemma SubstringMatcherLossPersists(reg: Registry, id: string, name: string, unknown: string)
    requires UnknownSender(reg, PrefixSubstring, id, name) && '@' in id
    requires name != "" && name != unknown && name != Unregistered
    ensures var next := InboundSender(reg, PrefixSubstring, Some(id), Some(name), unknown).registry;
      InboundSender(next, PrefixSubstring, Some(id), Some(name), unknown) == Named(Unregistered, next)
  {
    SubstringMatcherLosesRegisteredSender(reg, id, name, unknown);
    var next := InboundSender(reg, PrefixSubstring, Some(id), Some(name), unknown).registry;
    assert next == Register(reg, name, id);
    RegisterRecordsNumber(reg, name, id);
    TrimOfTrimmed(id);
    RegisterAppendsEntry(reg, name, id);
    var e := ContactEntry(Trim(name), id);
    var key := LookupKey(PrefixSubstring, id);
    if Contains(key, id) {
      ContainsShorter(key, id);
      assert false;
    }
    FindContactAfterMiss(reg.contacts, e, PrefixSubstring, id);
  }

  // ---------------------------------------------------------------------------
  // The MariaDB bridge
  // ---------------------------------------------------------------------------

  /** The project of the MariaDB bridge: the group mapping, else the default, except for outgoing direct messages. */
  function MariaDbProject(groups: seq<GroupEntry>, defaultProject: Option<string>, group: string, outgoing: bool): (r: string)
    ensures group != "" ==> r == GroupProject(groups, Caseless, group, Pick(defaultProject, NoProject))
    ensures group == "" && !outgoing ==> r == Pick(defaultProject, NoProject)
    ensures group == "" && outgoing ==> r == NoProject
    ensures r != ""  || (group != "" && FindGroup(groups, Caseless, group).Some?)
  {
    if group != "" then GroupProject(groups, Caseless, group, Pick(defaultProject, NoProject))
    else if !outgoing then Pick(defaultProject, NoProject)
    else NoProject
  }

  /** The recipient of an outgoing direct message in the MariaDB bridge, with its registration. */
  function OutgoingDirectRecipient(reg: Registry, to: string, chat: Chat, profile: Profile): (r: Named)
    ensures Truthy(ProfileName(profile)) && !(ProfileName(profile).value in {UnknownContact, Unregistered}) ==>
      r == Named(ProfileName(profile).value, reg)
    ensures !Truthy(ProfileName(profile)) ==>
      r == Named(OrElse(LookupName(reg.contacts, DigitSuffix, Some(to)), Pick(chat.name, UnknownContact)), reg)
    ensures Truthy(ProfileName(profile)) && ProfileName(profile).value in {UnknownContact, Unregistered} ==>
      r.registry == Register(reg, ProfileName(profile).value, to) &&
      r.name == LookupName(r.registry.contacts, DigitSuffix, Some(to))
    ensures Consistent(reg) ==> Consistent(r.registry)
  {
    var pn := ProfileName(profile);
    var first := Pick(pn, OrElse(LookupName(reg.contacts, DigitSuffix, Some(to)), Pick(chat.name, UnknownContact)));
    if (first == UnknownContact || first == Unregistered) && Truthy(pn) then
      var after := Register(reg, pn.value, to);
      Named(LookupName(after.contacts, DigitSuffix, Some(to)), after)
    else Named(first, reg)
  }

  /** A second outgoing message to the same recipient registers nothing new. */
  lemma OutgoingDirectRecipientRegistersOnce(reg: Registry, to: string, chat: Chat, profile: Profile)
    ensures var once := OutgoingDirectRecipient(reg, to, chat, profile).registry;
      OutgoingDirectRecipient(once, to, chat, profile).registry == once
  {
    var pn := ProfileName(profile);
    if Truthy(pn) && pn.value in {UnknownContact, Unregistered} {
      RegisterIdempotent(reg, pn.value, pn.value, to);
    }
  }

  /** `processMessage` of the MariaDB bridge, for a message that passed its filter. */
  function ResolveMariaDb(reg: Registry, groups: seq<GroupEntry>, defaultProject: Option<string>, account: Account,
                          m: Message, chat: Chat, profile: Profile, outgoing: bool): (r: Outcome)
    ensures r.fields.kind == TypeLabel(outgoing)
    ensures chat.isGroup <==> r.fields.group != ""
    ensures chat.isGroup ==> r.fields.group == GroupName(chat)
    ensures r.fields.project == MariaDbProject(groups, defaultProject, r.fields.group, outgoing)
    ensures outgoing ==>
      r.fields.sender == Pick(account.pushname, Me) && r.fields.senderPhone == Some(account.ownNumber) && r.fields.recipientPhone == Some(m.to)
    ensures outgoing && chat.isGroup ==> r.fields.recipient == GroupName(chat) && r.registry == reg
    ensures !outgoing ==> r.fields.recipient == Pick(account.pushname, Me) && r.fields.recipientPhone == Some(account.ownNumber)
    ensures !outgoing && chat.isGroup ==> r.fields.senderPhone == Some(if Truthy(m.author) then m.author.value else m.from)
    ensures !outgoing && !chat.isGroup ==> r.fields.senderPhone == Some(m.from)
    ensures outgoing && !chat.isGroup ==>
      var rec := OutgoingDirectRecipient(reg, m.to, chat, profile);
      r.fields.recipient == rec.name && r.registry == rec.registry
    ensures !outgoing && chat.isGroup ==>
      var author := if Truthy(m.author) then m.author.value else m.from;
      var s := InboundSender(reg, DigitSuffix, Some(author), ProfileName(profile), UnknownMember);
      if author != "" then r.fields.sender == s.name && r.registry == s.registry
      else r.fields.sender == NoAuthorId && r.registry == reg
    ensures !outgoing && !chat.isGroup ==>
      var s := InboundSender(reg, DigitSuffix, Some(m.from), ProfileName(profile), UnknownContact);
      r.fields.sender == s.name && r.registry == s.registry
    ensures Consistent(reg) ==> Consistent(r.registry)
  {
    var pn := ProfileName(profile);
    var group := if chat.isGroup then GroupName(chat) else "";
    var project := MariaDbProject(groups, defaultProject, group, outgoing);
    var kind := TypeLabel(outgoing);
    if outgoing then
      var sender := Pick(account.pushname, Me);
      if chat.isGroup then
        Outcome(Resolved(sender, group, Some(account.ownNumber), Some(m.to), group, project, kind), reg)
      else
        var rec := OutgoingDirectRecipient(reg, m.to, chat, profile);
        Outcome(Resolved(sender, rec.name, Some(account.ownNumber), Some(m.to), group, project, kind), rec.registry)
    else
      var me := Pick(account.pushname, Me);
      if chat.isGroup then
        var authorId := if Truthy(m.author) then m.author.value else m.from;
        if authorId != "" then
          var s := InboundSender(reg, DigitSuffix, Some(authorId), pn, UnknownMember);
          Outcome(Resolved(s.name, me, Some(authorId), Some(account.ownNumber), group, project, kind), s.registry)
        else
          Outcome(Resolved(NoAuthorId, me, Some(m.from), Some(account.ownNumber), group, project, kind), reg)
      else
        var s := InboundSender(reg, DigitSuffix, Some(m.from), pn, UnknownContact);
        Outcome(Resolved(s.name, me, Some(m.from), Some(account.ownNumber), group, project, kind), s.registry)
  }

  /** A mapped group's project wins over the default project, whatever the default is. */
  lemma GroupMappingTakesPrecedence(reg: Registry, groups: seq<GroupEntry>, d1: Option<string>, d2: Option<string>,
                                    account: Account, m: Message, chat: Chat, profile: Profile, outgoing: bool)
    requires chat.isGroup && FindGroup(groups, Caseless, GroupName(chat)).Some?
    ensures ResolveMariaDb(reg, groups, d1, account, m, chat, profile, outgoing).fields.project ==
            ResolveMariaDb(reg, groups, d2, account, m, chat, profile, outgoing).fields.project ==
            groups[FindGroup(groups, Caseless, GroupName(chat)).value].project
  {
    MappedGroupIgnoresFallback(groups, Caseless, GroupName(chat), Pick(d1, NoProject), Pick(d2, NoProject));
  }

  /**
   * The MariaDB bridge records an unknown direct sender under the trimmed
   * profile name, found again by the second lookup.
   */
  lemma MariaDbRecordsUnknownDirectSender(reg: Registry, groups: seq<GroupEntry>, defaultProject: Option<string>, account: Account,
                                          m: Message, chat: Chat, profile: Profile, name: string)
    requires !chat.isGroup && ProfileName(profile) == Some(name)
    requires UnknownSender(reg, DigitSuffix, m.from, name) && Digits(m.from) == Digits(TakeUntil(m.from, '@'))
    requires name != "" && name != UnknownContact && name != Unregistered
    ensures ResolveMariaDb(reg, groups, defaultProject, account, m, chat, profile, false).fields.sender == Trim(name)
  {
    SuffixMatcherFindsRegisteredSender(reg, m.from, name, UnknownContact);
  }

  // ---------------------------------------------------------------------------
  // The backup bridge
  // ---------------------------------------------------------------------------

  /** `processMessage` of the backup bridge, for a message that passed its filter. */
  function ResolveBackup(reg: Registry, groups: seq<GroupEntry>, account: Account,
                         m: Message, chat: Chat, profile: Profile, outgoing: bool): (r: Outcome)
    ensures r.fields.kind == TypeLabel(outgoing)
    ensures chat.isGroup <==> r.fields.group != ""
    ensures r.fields.group != "" ==> r.fields.project == GroupProject(groups, Caseless, r.fields.group, NoProject)
    ensures r.fields.group == "" ==> r.fields.project == NoProject
    ensures outgoing ==> r.fields.sender == Me && r.registry == reg
    ensures outgoing && !chat.isGroup ==>
      var looked := OrElse(LookupName(reg.contacts, PrefixSubstring, Some(m.to)), Unregistered);
      r.fields.recipient == (if looked == Unregistered && Truthy(chat.name) then chat.name.value else looked)
    ensures chat.isGroup ==> r.fields.group == GroupName(chat)
    ensures outgoing ==> r.fields.senderPhone == Some(account.ownNumber) && r.fields.recipientPhone == Some(m.to)
    ensures outgoing && chat.isGroup ==> r.fields.recipient == GroupName(chat)
    ensures !outgoing ==> r.fields.recipient == Me && r.fields.recipientPhone == Some(account.ownNumber)
    ensures !outgoing && chat.isGroup ==> r.fields.senderPhone == m.author
    ensures !outgoing && chat.isGroup ==>
      var s := InboundSender(reg, PrefixSubstring, m.author, ProfileName(profile), UnknownMember);
      r.fields.sender == s.name && r.registry == s.registry
    ensures !outgoing && !chat.isGroup ==>
      var s := InboundSender(reg, PrefixSubstring, Some(m.from), ProfileName(profile), UnknownContact);
      r.fields.senderPhone == Some(m.from) && r.fields.sender == s.name && r.registry == s.registry
    ensures Consistent(reg) ==> Consistent(r.registry)
  {
    var pn := ProfileName(profile);
    var group := if chat.isGroup then GroupName(chat) else "";
    var project := if group != "" then GroupProject(groups, Caseless, group, NoProject) else NoProject;
    var kind := TypeLabel(outgoing);
    if outgoing then
      if chat.isGroup then
        Outcome(Resolved(Me, group, Some(account.ownNumber), Some(m.to), group, project, kind), reg)
      else
        var looked := OrElse(LookupName(reg.contacts, PrefixSubstring, Some(m.to)), Unregistered);
        var rec := if looked == Unregistered && Truthy(chat.name) then chat.name.value else looked;
        Outcome(Resolved(Me, rec, Some(account.ownNumber), Some(m.to), group, project, kind), reg)
    else if chat.isGroup then
      var s := InboundSender(reg, PrefixSubstring, m.author, pn, UnknownMember);
      Outcome(Resolved(s.name, Me, m.author, Some(account.ownNumber), group, project, kind), s.registry)
    else
      var s := InboundSender(reg, PrefixSubstring, Some(m.from), pn, UnknownContact);
      Outcome(Resolved(s.name, Me, Some(m.from), Some(account.ownNumber), group, project, kind), s.registry)
  }

  /**
   * A group message without an author is registered under the text
   * "undefined" (the template literal of a missing value), and nothing is
   * looked up for it.
   */
  lemma BackupRegistersMissingAuthorAsUndefined(reg: Registry, groups: seq<GroupEntry>, account: Account,
                                                m: Message, chat: Chat, profile: Profile)
    requires chat.isGroup && m.author.None? && Truthy(ProfileName(profile))
    ensures ResolveBackup(reg, groups, account, m, chat, profile, false).registry ==
      Register(reg, ProfileName(profile).value, "undefined")
  {
    var pn := ProfileName(profile);
    assert LookupName(reg.contacts, PrefixSubstring, None) == Unregistered;
    assert Interpolate(m.author) == "undefined";
    assert InboundSender(reg, PrefixSubstring, m.author, pn, UnknownMember).registry == Register(reg, pn.value, "undefined");
  }

  /**
   * The backup bridge loses the same unknown direct sender: the registered
   * full id is longer than the part before '@' that its lookup searches.
   */
  lemma BackupLosesUnknownDirectSender(reg: Registry, groups: seq<GroupEntry>, account: Account,
                                       m: Message, chat: Chat, profile: Profile, name: string)
    requires !chat.isGroup && ProfileName(profile) == Some(name)
    requires UnknownSender(reg, PrefixSubstring, m.from, name) && '@' in m.from
    requires name != "" && name != UnknownContact && name != Unregistered
    ensures ResolveBackup(reg, groups, account, m, chat, profile, false).fields.sender == Unregistered
  {
    SubstringMatcherLosesRegisteredSender(reg, m.from, name, UnknownContact);
  }

  // ---------------------------------------------------------------------------
  // The older Notion-only bridge
  // ---------------------------------------------------------------------------

  /** `getGroupIdIfGroupChat`: the remote id when it is a group id, else "". */
  function GroupIdOf(remote: Option<string>): (r: string)
    ensures r != "" ==> remote == Some(r) && EndsWith(r, "@g.us")
    ensures remote.Some? && EndsWith(remote.value, "@g.us") ==> r == remote.value
    ensures remote.None? || !EndsWith(remote.value, "@g.us") ==> r == ""
  {
    if remote.Some? && EndsWith(remote.value, "@g.us") then remote.value else ""
  }

  /**
   * The older bridge's values and its registration. A reload of `None` marks
   * the strict loader throwing; nothing catches that throw, so the bridge
   * process ends there.
   */
  datatype OlderOutcome = OlderOutcome(fields: Resolved, text: string, reload: Option<seq<ContactEntry>>)

  /** `processMessage` of the older bridge, for a message that passed its filter. */
  function ResolveOlder(text: string, contacts: seq<ContactEntry>, groups: seq<GroupEntry>, m: Message, outgoing: bool): (r: OlderOutcome)
    ensures r.fields.kind == TypeLabel(outgoing)
    ensures r.fields.recipient == LookupName(contacts, WholeSubstring, Some(m.to))
    ensures r.fields.senderPhone == Some(m.from) && r.fields.recipientPhone == Some(m.to)
    ensures r.fields.group != Unregistered
    ensures var g := LookupName(contacts, WholeSubstring, Some(GroupIdOf(m.remote)));
      r.fields.group == (if g == Unregistered then "" else g)
    ensures r.fields.project == GroupProject(groups, Exact, r.fields.group, NoProject)
    ensures Truthy(m.author) && LookupName(contacts, WholeSubstring, m.author) != Unregistered ==>
      r.fields.sender == LookupName(contacts, WholeSubstring, m.author) && r.text == text
    ensures !Truthy(m.author) && LookupName(contacts, WholeSubstring, Some(m.from)) != Unregistered ==>
      r.fields.sender == LookupName(contacts, WholeSubstring, Some(m.from)) && r.text == text
    ensures !Truthy(m.notifyName) ==> r.text == text && r.reload == Some(contacts)
    ensures !Truthy(m.notifyName) ==>
      r.fields.sender == if Truthy(m.author) then LookupName(contacts, WholeSubstring, m.author)
                         else LookupName(contacts, WholeSubstring, Some(m.from))
    ensures var looked := if Truthy(m.author) then LookupName(contacts, WholeSubstring, m.author)
                          else LookupName(contacts, WholeSubstring, Some(m.from));
      looked != Unregistered ==> r.fields.sender == looked && r.text == text && r.reload == Some(contacts)
    ensures var looked := if Truthy(m.author) then LookupName(contacts, WholeSubstring, m.author)
                          else LookupName(contacts, WholeSubstring, Some(m.from));
      looked == Unregistered && Truthy(m.notifyName) ==>
        var appended := AppendContact(text, m.notifyName.value, if Truthy(m.author) then m.author.value else m.from);
        r.fields.sender == m.notifyName.value && r.text == appended.text && r.reload == appended.contacts
  {
    var looked := if Truthy(m.author) then LookupName(contacts, WholeSubstring, m.author)
                  else LookupName(contacts, WholeSubstring, Some(m.from));
    var groupLooked := LookupName(contacts, WholeSubstring, Some(GroupIdOf(m.remote)));
    var group := if groupLooked == Unregistered then "" else groupLooked;
    var project := GroupProject(groups, Exact, group, NoProject);
    var recipient := LookupName(contacts, WholeSubstring, Some(m.to));
    var kind := TypeLabel(outgoing);
    if looked == Unregistered && Truthy(m.notifyName) then
      var key := if Truthy(m.author) then m.author.value else m.from;
      var appended := AppendContact(text, m.notifyName.value, key);
      OlderOutcome(Resolved(m.notifyName.value, recipient, Some(m.from), Some(m.to), group, project, kind),
                   appended.text, appended.contacts)
    else
      OlderOutcome(Resolved(looked, recipient, Some(m.from), Some(m.to), group, project, kind), text, Some(contacts))
  }

  /** An unknown sender with a notify name is recorded under it and registered under the author, else under `from`. */
  lemma OlderRegistersUnderAuthorElseFrom(text: string, contacts: seq<ContactEntry>, groups: seq<GroupEntry>, m: Message, outgoing: bool)
    requires Truthy(m.notifyName)
    requires (if Truthy(m.author) then LookupName(contacts, WholeSubstring, m.author)
              else LookupName(contacts, WholeSubstring, Some(m.from))) == Unregistered
    ensures var r := ResolveOlder(text, contacts, groups, m, outgoing);
      var appended := AppendContact(text, m.notifyName.value, if Truthy(m.author) then m.author.value else m.from);
      r.fields.sender == m.notifyName.value && r.text == appended.text && r.reload == appended.contacts
  {
  }

  /**
   * Outside a group chat the group id is "", which only an entry with an
   * empty number contains: with no such entry the group is "" and, with no
   * mapping for "", the project is "N/A".
   */
  lemma OlderDirectChatHasNoGroup(text: string, contacts: seq<ContactEntry>, groups: seq<GroupEntry>, m: Message, outgoing: bool)
    requires m.remote.None? || !EndsWith(m.remote.value, "@g.us")
    requires forall i :: 0 <= i < |contacts| ==> contacts[i].number != ""
    requires forall i :: 0 <= i < |groups| ==> groups[i].group != ""
    ensures ResolveOlder(text, contacts, groups, m, outgoing).fields.group == ""
    ensures ResolveOlder(text, contacts, groups, m, outgoing).fields.project == NoProject
  {
    assert GroupIdOf(m.remote) == "";
    EmptyIdMatchesNoEntry(contacts);
  }

  /** Only an entry with an empty number matches the empty id. */
  lemma EmptyIdMatchesNoEntry(contacts: seq<ContactEntry>)
    requires forall i :: 0 <= i < |contacts| ==> contacts[i].number != ""
    ensures LookupName(contacts, WholeSubstring, Some("")) == Unregistered
  {
    forall i | 0 <= i < |contacts|
      ensures !EntryMatches(WholeSubstring, contacts[i].number, "")
    {
      var n := contacts[i].number;
      if Contains("", n) {
        ContainsShorter("", n);
      }
    }
  }
}

=== FILE: sinks.dfy ===
/**
 * The two records a newer bridge writes for every logged message: the Notion
 * page properties and the MariaDB row values, both shaped from the resolved
 * fields with their own defaults.
 */
module Sinks {
  import opened Wrappers
  import opened JsText
  import opened Directory
  import opened Resolution

  /** Notion's limit on one rich-text block, and the marker a cut block ends with. */
  const MaxContent := 2000
  const Ellipsis := "..."

  const UnknownName := "Desconocido"
  const NoContent := "(Sin contenido)"
  const NoPhone := "N/A"

  /**
   * The Notion content: a text longer than the limit keeps its first
   * `MaxContent - 3` characters and ends with "...", so it is exactly
   * `MaxContent` long; shorter text is sent as it is.
   */
  function Truncate(content: string): (r: string)
    ensures |r| <= MaxContent
    ensures r == content <==> |content| <= MaxContent
    ensures |content| > MaxContent ==>
      |r| == MaxContent && r[..MaxContent - 3] == content[..MaxContent - 3] && EndsWith(r, Ellipsis)
  {
    if |content| > MaxContent then
      var r := content[..MaxContent - 3] + Ellipsis;
      assert r[|r| - |Ellipsis|..] == Ellipsis;
      r
    else content
  }

  /** Cutting an already cut text changes nothing. */
  lemma TruncateIdempotent(content: string)
    ensures Truncate(Truncate(content)) == Truncate(content)
  {
  }

  /** A non-empty text stays non-empty when cut. */
  lemma TruncateKeepsNonEmpty(content: string)
    ensures Truncate(content) == "" <==> content == ""
  {
  }

  /** The properties of the Notion page, one string per property. */
  datatype NotionPage = NotionPage(
    sender: string,
    recipient: string,
    kind: string,
    date: string,
    content: string,
    senderPhone: string,
    recipientPhone: string,
    project: string,
    group: string)

  /** The text of a property that falls back to `fallback` when the value is empty. */
  function Filled(s: string, fallback: string): (r: string)
    requires fallback != ""
    ensures r != ""
    ensures s != "" ==> r == s
    ensures s == "" ==> r == fallback
  {
    OrElse(s, fallback)
  }

  /**
   * `addEntryToNotionDatabase` of the newer bridges: names default to
   * "Desconocido", the content is cut and defaults to "(Sin contenido)",
   * phones and the project default to "N/A", and the group is sent as it is.
   */
  function NotionPageOf(f: Resolved, date: string, content: string): (p: NotionPage)
    ensures p.sender != "" && p.recipient != "" && p.content != "" && p.project != ""
    ensures p.senderPhone != "" && p.recipientPhone != ""
    ensures |p.content| <= MaxContent
    ensures f.sender != "" ==> p.sender == f.sender
    ensures f.recipient != "" ==> p.recipient == f.recipient
    ensures Truthy(f.senderPhone) ==> p.senderPhone == f.senderPhone.value
    ensures Truthy(f.recipientPhone) ==> p.recipientPhone == f.recipientPhone.value
    ensures f.project != "" ==> p.project == f.project
    ensures content != "" ==> p.content == Truncate(content)
    ensures f.sender == "" ==> p.sender == UnknownName
    ensures f.recipient == "" ==> p.recipient == UnknownName
    ensures content == "" ==> p.content == NoContent
    ensures !Truthy(f.senderPhone) ==> p.senderPhone == NoPhone
    ensures !Truthy(f.recipientPhone) ==> p.recipientPhone == NoPhone
    ensures f.project == "" ==> p.project == NoProject
    ensures p.kind == f.kind && p.date == date && p.group == f.group
  {
    TruncateKeepsNonEmpty(content);
    NotionPage(
      Filled(f.sender, UnknownName),
      Filled(f.recipient, UnknownName),
      f.kind,
      date,
      Filled(Truncate(content), NoContent),
      Pick(f.senderPhone, NoPhone),
      Pick(f.recipientPhone, NoPhone),
      Filled(f.project, NoProject),
      f.group)
  }

  // ---------------------------------------------------------------------------
  // The MariaDB row
  // ---------------------------------------------------------------------------

  /** The values bound to the `INSERT` placeholders; `None` is SQL `NULL`. */
  datatype Row = Row(
    messageId: Option<string>,
    sender: string,
    recipient: string,
    senderPhone: string,
    recipientPhone: string,
    kind: string,
    timestamp: string,
    content: string,
    group: Option<string>,
    project: Option<string>)

  /** `message.id && message.id.id ? message.id.id : null`. */
  function MessageIdOf(id: Option<string>): (r: Option<string>)
    ensures r.Some? <==> Truthy(id)
    ensures r.Some? ==> r == id
  {
    if Truthy(id) then id else None
  }

  /** `groupName || null`: the empty group is stored as `NULL`. */
  function GroupColumn(group: string): (r: Option<string>)
    ensures r.None? <==> group == ""
    ensures r.Some? ==> r.value == group
  {
    if group == "" then None else Some(group)
  }

  /** `projectName === 'N/A' ? null : (projectName || null)`. */
  function ProjectColumn(project: string): (r: Option<string>)
    ensures r.None? <==> project == NoProject || project == ""
    ensures r.Some? ==> r.value == project
  {
    if project == NoProject then None
    else if project == "" then None
    else Some(project)
  }

  /**
   * `addEntryToMariaDB` of the newer bridges: the same name, phone and
   * content defaults as the page, the full (uncut) content, and `NULL` for
   * an empty group and for a missing or "N/A" project.
   */
  function RowOf(messageId: Option<string>, f: Resolved, date: string, content: string): (r: Row)
    ensures r.sender != "" && r.recipient != "" && r.content != ""
    ensures r.senderPhone != "" && r.recipientPhone != ""
    ensures f.sender != "" ==> r.sender == f.sender
    ensures f.recipient != "" ==> r.recipient == f.recipient
    ensures Truthy(f.senderPhone) ==> r.senderPhone == f.senderPhone.value
    ensures Truthy(f.recipientPhone) ==> r.recipientPhone == f.recipientPhone.value
    ensures content != "" ==> r.content == content
    ensures f.sender == "" ==> r.sender == UnknownName
    ensures f.recipient == "" ==> r.recipient == UnknownName
    ensures content == "" ==> r.content == NoContent
    ensures !Truthy(f.senderPhone) ==> r.senderPhone == NoPhone
    ensures !Truthy(f.recipientPhone) ==> r.recipientPhone == NoPhone
    ensures r.group.None? <==> f.group == ""
    ensures r.project.None? <==> f.project in {NoProject, ""}
    ensures r.project.Some? ==> r.project.value == f.project
    ensures r.messageId == messageId && r.kind == f.kind && r.timestamp == date
  {
    Row(
      messageId,
      Filled(f.sender, UnknownName),
      Filled(f.recipient, UnknownName),
      Pick(f.senderPhone, NoPhone),
      Pick(f.recipientPhone, NoPhone),
      f.kind,
      date,
      Filled(content, NoContent),
      GroupColumn(f.group),
      ProjectColumn(f.project))
  }

  /**
   * The page and the row of one message agree: the same names, phones and
   * type; the page's content is the row's content cut to the limit; the row
   * has a group exactly when the page's group is non-empty, and a project
   * exactly when the page's project is not "N/A".
   */
  lemma PageAndRowAgree(messageId: Option<string>, f: Resolved, date: string, content: string)
    ensures var p := NotionPageOf(f, date, content);
      var r := RowOf(messageId, f, date, content);
      && p.sender == r.sender && p.recipient == r.recipient
      && p.senderPhone == r.senderPhone && p.recipientPhone == r.recipientPhone
      && p.kind == r.kind && p.date == r.timestamp
      && p.content == Truncate(r.content)
      && (r.group.None? <==> p.group == "")
      && (r.group.Some? ==> r.group.value == p.group)
      && (r.project.None? <==> p.project == NoProject)
      && (r.project.Some? ==> r.project.value == p.project)
  {
    var p := NotionPageOf(f, date, content);
    var r := RowOf(messageId, f, date, content);
    if content == "" {
      assert r.content == NoContent && p.content == NoContent;
      assert |NoContent| <= MaxContent;
    }
  }

  /** The full content goes to the database even when the page gets a cut copy. */
  lemma RowKeepsLongContent(messageId: Option<string>, f: Resolved, date: string, content: string)
    requires |content| > MaxContent
    ensures RowOf(messageId, f, date, content).content == content
    ensures NotionPageOf(f, date, content).content != content
    ensures |NotionPageOf(f, date, content).content| == MaxContent
  {
  }

  /**
   * A direct message of the backup bridge, in either direction, is stored
   * with a `NULL` project: the project is only set for group chats.
   */
  lemma BackupDirectRowHasNoProject(reg: Registration.Registry, groups: seq<GroupEntry>, account: Account,
                                    m: Events.Message, chat: Chat, profile: Profile, outgoing: bool,
                                    messageId: Option<string>, date: string)
    requires !chat.isGroup && m.body.Some?
    ensures var o := ResolveBackup(reg, groups, account, m, chat, profile, outgoing);
      RowOf(messageId, o.fields, date, m.body.value).project.None? &&
      RowOf(messageId, o.fields, date, m.body.value).group.None?
  {
  }

  /**
   * An outgoing direct message of the MariaDB bridge is stored with a `NULL`
   * project, while an incoming one gets the default project when one is set.
   */
  lemma MariaDbDirectRowProject(reg: Registration.Registry, groups: seq<GroupEntry>, defaultProject: Option<string>,
                                account: Account, m: Events.Message, chat: Chat, profile: Profile, outgoing: bool,
                                messageId: Option<string>, date: string, content: string)
    requires !chat.isGroup
    ensures var o := ResolveMariaDb(reg, groups, defaultProject, account, m, chat, profile, outgoing);
      var r := RowOf(messageId, o.fields, date, content);
      && (outgoing ==> r.project.None?)
      && (!outgoing && Truthy(defaultProject) && defaultProject.value != NoProject ==> r.project == defaultProject)
  {
  }
}

=== FILE: wrappers.dfy ===
/** The optional-value datatype used for JavaScript fields that may be `undefined`. */
module Wrappers {

  /** `None` stands for a missing (`undefined` / `null`) or non-string value. */
  datatype Option<+T> = None | Some(value: T)
}
